=== FILE: README.md ===
# Calendar widget event logic, in Dafny

This project models the event-handling core of `calendar_widget.py`, a desktop
widget that shows the current month of a Google Calendar. It leaves out the Tk
window, the OAuth login and the HTTP requests, and keeps the pure logic they
surround:

- **Month window** (`get_inicio_fim_mes`): the first and last day of the current
  month, written as the two ISO instants sent with the events query.
- **Event normaliser** (`formatar_evento`): turns an event resource into the
  widget's record (`dia_inteiro`, `data`, `data_curta`, `hora`, `titulo`, `cor`,
  `data_obj`). The start text is tried as "contains `Z`", then "contains `T`",
  then a bare `YYYY-MM-DD`. Any failure gives the fallback record.
- **Colours** (`alternar_modo`, `cor_evento`): the global light/dark flag with
  its active palette, and the lookup of the calendar's eleven colour
  identifiers.
- **Day listing** (`exibir_eventos`, `nome_dia_semana`): the counter, the
  empty-month placeholder, grouping by `DD/MM`, chronological order of the days,
  and the headings `Hoje`, `Amanhã` or the weekday, each followed by the count.
- **Refresh** (`atualizar_widget`): formats the fetched events, sorts them by
  `data_obj`, shows them, and turns any exception into an error line.

Python's `datetime` is modelled as far as these functions use it:

- the proleptic Gregorian calendar for years 1 to 9999, with `toordinal` and
  `weekday`;
- `strftime` with `%d/%m/%Y`, `%d/%m` and `%H:%M`; `%Y` writes the year without
  padding, as the C library's `strftime` does on Linux (the model follows
  that behaviour; Python releases that pad `%Y` to four digits themselves would
  differ only in the shown `data` text for years below 1000, and
  `nome_dia_semana`, which builds its text with `str(year)`, not at all);
- `strptime` with `%Y-%m-%d`, following the regular expressions CPython
  builds for `%Y`, `%m` and `%d` and its check for text left after the match,
  and with `%d/%m/%Y` on two-digit fields;
- `isoformat` with any separator, plus the subset of `fromisoformat` that reads
  back what `isoformat` writes.

Datetimes are naive or aware (`offset: Option<int>`, in minutes east of UTC).
Python refuses to order a naive value against an aware one, and that refusal is
the subject of the finding below. Every `datetime.now()` and `date.today()` the
source calls becomes one parameter `now`. The result of the events query
becomes an input, `Result<seq<RawEvent>>`.

Three details of the code that the model keeps:

- Identifiers 1, 2, 3 and 9 follow the active palette; the other seven follow only the flag (`Palette.CorEventoSources`).
- Whether an event is all-day depends on which keys `start` has (`date` present, `dateTime` absent), whatever the text looks like (`Events.HasDateOnly`).
- `atualizar_widget` sorts the events by `data_obj` (line 486) before grouping them, and that sort fails on a mix of naive and aware starts (see Findings).

Modules, in dependency order:

| module | file | contents |
|---|---|---|
| `Wrappers` | wrappers.dfy | `Option`, `Result` |
| `Digits` | digits.dfy | digit strings, `%02d`/`%04d`/`%06d` padding, `str(n)` |
| `Dates` | dates.dfy | calendar, ordinals, weekdays, `DateTime`, comparison ranks |
| `DateText` | date_text.dfy | `strftime`, `strptime`, `isoformat`, `fromisoformat` |
| `MonthWindow` | month_window.dfy | `get_inicio_fim_mes` |
| `Events` | events.dfy | `formatar_evento` |
| `Palette` | palette.dfy | palettes, `alternar_modo`, `cor_evento` |
| `Sorting` | sorting.dfy | the stable sort used by `sorted` and `list.sort` |
| `Grouping` | grouping.dfy | `exibir_eventos`, `nome_dia_semana`, one event line |
| `DayListing` | day_listing.dfy | what the listing means: partition, order, headings |
| `Regroup` | regroup.dfy | counts add up; regrouping the listing changes nothing |
| `Refresh` | refresh.dfy | `atualizar_widget`, as written and corrected |

## Model

| member | source | states |
|---|---|---|
| MonthWindow.MonthBounds | calendar_widget.py:72-79 | Succeeds unless today is in December 9999. The first day is day 1 of today's month. The last day is in the same month and year and is that month's last day (28 to 31, with leap years). |
| MonthWindow.WindowIsMonth | calendar_widget.py:72-79 | A date lies between the first and last day exactly when it is in today's year and month. The window has as many days as the month. Today lies inside it. |
| MonthWindow.GetInicioFimMes | calendar_widget.py:70-85 | The two query bounds exist exactly when the month bounds do; December 9999 raises, as building 1 January 10000 does. |
| Events.WindowBoundsReadBack | calendar_widget.py:82-83 | Read back through the start parser, the two bounds give midnight of the first day and 23:59:59.999999 of the last day, aware at offset zero. |
| Events.ParseStart | calendar_widget.py:109-117 | A parsed start is a valid datetime. A text with neither `Z` nor `T` parses only to a naive midnight. |
| Events.ParseEventStart | calendar_widget.py:106-117 | A missing `start`, or a `start` with neither `dateTime` nor `date`, is an error. Any parsed start is valid. |
| Events.FormatarEvento | calendar_widget.py:103-154 | Never fails, and always returns a well-formed record (`hora` present exactly for timed records). `dia_inteiro` holds exactly when `start` has `date` but no `dateTime` and the start parses. With a parsed start: `data_obj` is that start, title and colour come from the event or default, and timed records show `HH:MM`. Otherwise: the fallback record (`??:??`, colour `1`, `data_obj` = now, title "Erro no evento: " plus the message). |
| Events.TimedRoundTrip | calendar_widget.py:112-114 | A `dateTime` written by `isoformat` is read as the same instant, timed, with `hora` its `HH:MM` and `data_curta` its `DD/MM`. |
| Events.UtcRoundTrip | calendar_widget.py:109-111 | `isoformat` text with `Z` appended reads as the same wall-clock time, aware at offset zero, whatever the separator. |
| Events.TimedTextAware | calendar_widget.py:109-114 | A timed start ending in `Z` or in a UTC offset is read as an aware instant: the offset form as written, the `Z` form at offset zero. |
| Events.SpaceSeparatedStart | calendar_widget.py:109-117 | A `dateTime` with a space instead of `T` is read when it ends in `Z`. Without the `Z` it reaches `strptime`, which fails with "unconverted data remains: " and the time. |
| Events.AllDayRoundTrip | calendar_widget.py:115-128 | A `date` of the form `YYYY-MM-DD` gives an all-day record without `hora`, `data_obj` naive midnight of that day, and `data` its `DD/MM/YYYY`. |
| Events.TripExample | calendar_widget.py:120-128 | `{start: {date: "2024-03-15"}, summary: "Trip"}` is all-day, dated 15/03/2024, titled Trip, colour 1, with no `hora`. |
| Events.CallExample | calendar_widget.py:109-139 | `{start: {dateTime: "2024-03-15T14:30:00Z"}, summary: "Call", colorId: "3"}` is timed at 14:30, colour 3, aware at offset zero. |
| Events.Fallback | calendar_widget.py:146-154 | The fallback record is a timed record of today (`data` starting with its `data_curta`), with `hora` `??:??`, colour `1`, the error as title and now as `data_obj`. |
| Events.MalformedExample | calendar_widget.py:142-154 | A `date` of `15/03/2024` fails `strptime`. The record is the fallback, titled "Erro no evento: " plus the no-match message. |
| DateText.IsoRoundTrip | calendar_widget.py:111-114 | `fromisoformat` reads back exactly the datetime `isoformat(sep)` wrote, offset included, for any separator. |
| DateText.OffsetMinutesExample | calendar_widget.py:111-114 | `fromisoformat` reads the offset `+05:75` as 6 hours 15 minutes east of UTC, and refuses `-23:60`, which reaches a whole day. |
| DateText.IsoDateRoundTrip | calendar_widget.py:117 | `strptime(..., '%Y-%m-%d')` reads the date part of `isoformat` back as that day's naive midnight. |
| DateText.StrptimeIsoDate | calendar_widget.py:117 | A parsed date gives a naive midnight, and the whole text writes that date in a form `%Y-%m-%d` reads: four-digit year, month and day zero-padded or, below ten, one digit (the day also space-padded). |
| DateText.StrptimeIsoDateExactly | calendar_widget.py:117 | A text is read as a valid date's midnight exactly when it writes that date in one of those forms. |
| DateText.TrailingTextRemains | calendar_widget.py:117 | A `YYYY-MM-DD` date followed by more text fails with "unconverted data remains: " and that text. |
| DateText.OverlongDayExample | calendar_widget.py:117 | `2024-03-32` fails with "unconverted data remains: 2". |
| DateText.OneDigitExample | calendar_widget.py:117 | `2024-3-5` is read as 5 March 2024. |
| DateText.DayMonthYearRoundTrip | calendar_widget.py:352-353 | `strftime('%d/%m/%Y')` is read back by `strptime` exactly when the year has four digits, and then gives the same date. |
| Dates.Tomorrow | calendar_widget.py:408 | `now + timedelta(days=1)` exists exactly when the date is not 31/12/9999; it is valid and one ordinal later. |
| Dates.NextDayStep | calendar_widget.py:408 | The next day of a date other than the last is valid, one ordinal later, and `PrevDay` undoes it. |
| Dates.WeekdayAdvances | calendar_widget.py:356 | The weekday of the next day is one more, modulo 7. |
| Dates.Friday15March2024 | calendar_widget.py:356 | The ordinal weekday count names 15 March 2024 a Friday. |
| Palette.AlternarModo | calendar_widget.py:46-49 | Flips the flag and makes the active palette the one the new flag names. |
| Palette.ToggleTwice | calendar_widget.py:46-49 | Two toggles restore the state exactly when its palette matches its flag, and the initial state does. |
| Palette.CorEvento | calendar_widget.py:329-345 | An identifier outside `1` to `11` gets the active palette's blue. |
| Palette.CorEventoMatchesTable | calendar_widget.py:332-345 | In a consistent state each identifier shows its entry of the eleven-row light/dark table, and any other shows the current mode's blue. |
| Palette.CorEventoSources | calendar_widget.py:333-343 | Identifiers 1, 2, 3 and 9 depend only on the active palette. The other seven depend only on the flag. |
| Palette.ModesDiffer | calendar_widget.py:332-345 | Every identifier, known or not, changes colour when the theme is toggled. |
| Palette.ElevenExample | calendar_widget.py:343 | Identifier 11 is `#009688` in light mode and `#80CBC4` in dark mode. |
| Sorting.SortBy | calendar_widget.py:486 | The sort returns a permutation of its input, in order of the key. |
| Sorting.SortByStable | calendar_widget.py:486 | The sort is stable: elements with equal keys keep their input order. |
| Sorting.SortedUnique | calendar_widget.py:403-404 | Two sorted permutations of the same elements are equal when no two elements share a key. |
| Grouping.DistinctKeys | calendar_widget.py:393-398 | The keys of `eventos_por_data` have no repeats and are exactly the `data_curta` values that occur. |
| Grouping.Bucket | calendar_widget.py:393-398 | `eventos_por_data[k]` holds only events of `es` with key `k`. It is non-empty exactly when `k` occurs. |
| Grouping.FirstKeyError | calendar_widget.py:403-404 | The `sorted` key raises exactly when some key does not read as a date of the current year. |
| Grouping.ExibirEventos | calendar_widget.py:381-433 | The counter is `(n eventos)` for n events. The placeholder is shown exactly for no events. The call fails exactly when there are events and either some key is not a date of this year or today is 31/12/9999. |
| Grouping.FailureMeansSomeKeyFails | calendar_widget.py:403-404 | The first failing key exists exactly when some event's key fails. |
| Grouping.KeyDate | calendar_widget.py:404 | A key that reads as a date gives a valid date of the current year, and the key is that date's `DD/MM` text. |
| Grouping.KeyDateOf | calendar_widget.py:404 | The `DD/MM` text of any date in a four-digit year reads back as that date. |
| Grouping.DayMonthTextInjective | calendar_widget.py:407-408 | Two dates have the same `DD/MM` text exactly when day and month agree. |
| Grouping.NomeDiaSemana | calendar_widget.py:347-372 | Returns one of the seven Portuguese weekday names, or "" exactly when the key does not read as a date of the current year. |
| Grouping.DayLabel | calendar_widget.py:423-429 | The heading is "Hoje, " and the key exactly for today's key. It is "Amanhã, " and the key exactly for tomorrow's key when that is not today's. Any other key gets its weekday name. |
| Grouping.Agrupar | calendar_widget.py:393-433 | One group per distinct key, each key one that occurs, holding exactly the events with that key. |
| Grouping.FallbackUnderToday | calendar_widget.py:146-154 | In a four-digit year the fallback record's key reads as today's date, so it is listed under "Hoje". |
| Grouping.NomeDiaSemanaOf | calendar_widget.py:347-372 | `nome_dia_semana` gives the true Portuguese weekday of any date in a four-digit year. Below year 1000 it gives "" for every key. |
| Grouping.FridayExample | calendar_widget.py:347-369 | `nome_dia_semana("15/03")` in 2024 is "Sexta". |
| Grouping.EventRow | calendar_widget.py:442-475 | An event line shows its title, and "Dia inteiro" for all-day events or `hora` otherwise. |
| Grouping.RowOfFormatted | calendar_widget.py:450-475 | For a formatted event the second line is "Dia inteiro" exactly for all-day events. It is "??:??" exactly for unreadable starts, and otherwise the start's `HH:MM`. The bar has the `cor_evento` colour. |
| DayListing.ListingMeaning | calendar_widget.py:384-433 | Whenever days are listed: they partition the events by key (each event once, under its own key, in input order, no key twice). Days are in strictly increasing date order. Each heading is Hoje, Amanhã or the weekday, then `, DD/MM (n)`. |
| DayListing.AgruparPartitions | calendar_widget.py:393-398 | The groups partition the events by `data_curta`. |
| DayListing.GroupsKeepEvents | calendar_widget.py:393-398 | The groups, laid end to end, hold the same events as the input, as a multiset. |
| DayListing.AgruparChronological | calendar_widget.py:403-404 | Group keys read as dates of the current year, strictly increasing. |
| DayListing.AgruparHeadings | calendar_widget.py:407-433 | Every heading names its day (today, tomorrow, or the weekday) and ends with its count. |
| DayListing.DayLabelNames | calendar_widget.py:423-429 | The heading, which compares `DD/MM` texts, is "Hoje" for today's date. It is "Amanhã" for a date with tomorrow's day and month, and the weekday otherwise. |
| DayListing.SortedKeysAgree | calendar_widget.py:403-404 | Event lists with the same keys, all readable, sort their keys identically. |
| DayListing.SameDaysSameOrder | calendar_widget.py:403-411 | The days' order depends only on which days occur, not on the order of the events. |
| DayListing.BucketSorted | calendar_widget.py:411 | A day's events keep the input order, so a sorted input gives sorted days. |
| DayListing.SomeKeyFailsPermutation | calendar_widget.py:403-404 | Whether the key sort raises does not depend on the order of the events. |
| Regroup.GroupSizesAddUp | calendar_widget.py:381-382 | The headings' counts add up to the counter's number. |
| Regroup.RegroupIdempotent | calendar_widget.py:381-433 | Listing again the events as shown, group after group, gives the same counter and the same groups. |
| Refresh.FormatAll | calendar_widget.py:483 | Every fetched event is formatted, in order, into a well-formed record. |
| Refresh.SortByStart | calendar_widget.py:486 | As written: the sort raises "can't compare offset-naive and offset-aware datetimes" exactly when naive and aware starts are both present. Otherwise it returns a permutation in start order that keeps events with equal starts in their input order, as `list.sort` is stable. |
| Refresh.SortByStartFixed | calendar_widget.py:486 | Corrected: a stable permutation ordered by the start as shown on the wall clock, never failing. |
| Refresh.FixedAgreesWhenNaive | calendar_widget.py:486 | With no aware start, the corrected sort gives the same result as the original. |
| Refresh.Show | calendar_widget.py:489-496 | Showing sets the counter. It fails exactly when `exibir_eventos` raises. |
| Refresh.AtualizarWidget | calendar_widget.py:477-496 | As written: a fetch error shows "Erro ao atualizar: " plus the message, counter unchanged. A mix of naive and aware starts does the same with the comparison message. Otherwise the counter shows the fetched count, and the listing is as stated in the next row. |
| Refresh.RefreshListing | calendar_widget.py:477-496 | As written, for a month whose starts are all naive or all aware: the refresh fails exactly for the reasons `exibir_eventos` has, and shows the placeholder exactly for an empty month. Otherwise it lists every event once, days in calendar order, each day's events in order of `data_obj`. |
| Refresh.MixedMonthFails | calendar_widget.py:480-496 | A month holding an all-day event and a timed event whose start ends in `Z` or in a UTC offset fails to refresh as written, and the counter keeps its old text. |
| Refresh.AtualizarWidgetFixed | calendar_widget.py:477-496 | Corrected: a fetch error shows the error line. Otherwise the counter shows the fetched count, and the listing is as stated in the next row. |
| Refresh.FixedRefreshListing | calendar_widget.py:477-496 | Corrected: the refresh fails exactly for the reasons `exibir_eventos` has, and shows the placeholder exactly for an empty month. Otherwise it lists every event once, days in calendar order, each day's events in order of shown start. |

## Left out

- Authentication (`autenticar_google_calendar`, lines 52-68): OAuth and token-file I/O are foreign library calls.
- The events query (`buscar_eventos`, lines 87-101): a network call. Its outcome is the `fetched` parameter of `Refresh.AtualizarWidget`, so the server's `maxResults` cap and ordering are not modelled.
- All Tk widgets, layout, dragging, scrolling, the header icon download and window rebuilding (lines 156-327, the widget parts of 374-475, 505 onwards): user interface and network I/O. Of the event lines, only their text and bar colour are modelled (`Grouping.EventRow`).
- The five-minute rescheduling (line 503), threads, `app.py` and `migrate.py`: event-loop and process plumbing without logic to verify.
- Console output (`print`, `traceback.print_exc`): it has no effect on the state.
- Clock reads: each call reads `datetime.now()` several times. The model reads one `now` for the whole call, so a refresh that straddles midnight is not modelled.
- Locale: `strftime('%A')` is taken to give English names, so the translation table always applies. Under another locale the untranslated local name would pass through.
- `Events.ParseStart`: timed starts from the calendar API are written as `YYYY-MM-DDTHH:MM:SS` followed by `Z` or `±HH:MM`, and the model reads, with `fromisoformat`, `YYYY-MM-DD?HH:MM[:SS[.fff|.ffffff]][±HH:MM]`, where `?` is any character. The offset's minutes may exceed 59, as Python adds them to the hours; only a total of a day or more is refused. Every Python version that has `fromisoformat` also accepts an hour without minutes (`2024-03-15T14`) and offsets with seconds (`+05:30:00`), and later versions add further forms (basic format, week dates, a bare `Z`). All of these take the error path here.
- `DateText.StrptimeDayMonthYear`: requires a two-digit day and month. Python's `strptime` also reads a one-digit or space-padded day or month; such texts take the no-match path here. The only texts `exibir_eventos` reads with `%d/%m/%Y` are keys written by `strftime('%d/%m')` followed by `str(year)`, which never have them.
- `strptime`'s `\d` also matches decimal digits outside ASCII, which Python's `int` reads; only ASCII digits are modelled.
- Exception messages other than the sort's comparison error and `strptime`'s messages are approximations of CPython's text. `strptime`'s no-match message quotes the text between single quotes, as `repr` does for texts without quotes, backslashes or unprintable characters.
- `Grouping.EventRow`: requires a well-formed record. Every record `formatar_evento` returns is one, so the `KeyError` of a hand-built timed record without `hora` is not modelled.
- `Refresh.SortByStart`: whether `list.sort` raises on a naive/aware mix is modelled by the argument that a finished sort has compared every adjacent pair of its result, one of which is mixed. The model states that outcome, not Timsort's comparison sequence.
- `Refresh.DataObjRank`: aware starts are compared by UTC instant and naive ones by wall clock. The two kinds are never compared with each other, because the sort fails first.

## Findings

| source | as written | input that shows it | evidently intended | confidence | as-written member | corrected member |
|---|---|---|---|---|---|---|
| calendar_widget.py:486 | `eventos.sort(key=lambda e: e['data_obj'])` compares `datetime` values. All-day events and `T`-only starts parse to naive datetimes. Timed starts ending in `Z` or in a UTC offset such as `-03:00` parse to aware ones. Python raises `TypeError` when ordering a naive against an aware value, so the whole refresh fails and shows "Erro ao atualizar: can't compare offset-naive and offset-aware datetimes". | events `{start: {date: "2024-03-15"}}` and `{start: {dateTime: "2024-03-15T14:30:00Z"}}` in the same month | sort by the start as shown (the wall-clock reading of `data_obj`), so that any month lists | high; not executed | Refresh.SortByStart, Refresh.MixedMonthFails | Refresh.SortByStartFixed, Refresh.FixedRefreshListing |

=== FILE: date_text.dfy ===
/** The textual date formats the widget reads and writes: `strftime` renderings,
    `strptime` with a fixed format, and the `isoformat`/`fromisoformat` pair. */
module DateText {
  import opened Wrappers
  import opened Digits
  import opened Dates

  predicate DigitsIn(s: string, i: int, j: int) {
    0 <= i <= j <= |s| && AllDigits(s[i..j])
  }

  function NumberIn(s: string, i: int, j: int): nat
    requires DigitsIn(s, i, j)
  {
    ParseNat(s[i..j])
  }

  /** A two-digit field is the zero-padded rendering of its value. */
  lemma TwoDigitField(s: string, i: int)
    requires DigitsIn(s, i, i + 2)
    ensures NumberIn(s, i, i + 2) < 100 && s[i..i + 2] == Pad2(NumberIn(s, i, i + 2))
  {
    var f := s[i..i + 2];
    ParseNatSnoc([], f[0]);
    ParseNatSnoc([f[0]], f[1]);
    assert [] + [f[0]] == [f[0]] && f == [f[0]] + [f[1]];
    ParseNatInjective(f, Pad2(ParseNat(f)));
  }

  /** A four-digit field is the zero-padded rendering of its value. */
  lemma FourDigitField(s: string, i: int)
    requires DigitsIn(s, i, i + 4)
    ensures NumberIn(s, i, i + 4) < 10000 && s[i..i + 4] == Pad4(NumberIn(s, i, i + 4))
  {
    var f := s[i..i + 4];
    TwoDigitField(f, 0);
    TwoDigitField(f, 2);
    assert f == f[0..2] + f[2..4];
    ParseNatConcat(f[0..2], f[2..4]);
    assert Pow10(2) == 100;
    ParseNatInjective(f, Pad4(ParseNat(f)));
  }

  // ---------------------------------------------------------------------------
  // strftime('%d/%m') and strftime('%d/%m/%Y')

  /** `strftime('%d/%m')`, the short key events are grouped by. */
  function DayMonthText(d: Date): (s: string)
    requires ValidDate(d)
    ensures |s| == 5 && s[2] == '/'
  {
    Pad2(d.day) + "/" + Pad2(d.month)
  }

  /** `strftime('%d/%m/%Y')`; `%Y` is rendered unpadded, as the C library does. */
  function DayMonthYearText(d: Date): (s: string)
    requires ValidDate(d)
    ensures |s| > 6 && s[..5] == DayMonthText(d) && s[5] == '/'
  {
    DayMonthText(d) + "/" + Decimal(d.year)
  }

  // ---------------------------------------------------------------------------
  // strptime with '%Y-%m-%d' and '%d/%m/%Y'

  function NoMatch(s: string, format: string): string {
    "time data '" + s + "' does not match format '" + format + "'"
  }

  function Unconverted(rest: string): string {
    "unconverted data remains: " + rest
  }

  /** The checks `date(year, month, day)` applies, in CPython's order. */
  function CheckDate(year: nat, month: nat, day: nat): (r: Result<Date>)
    ensures r.Ok? <==> ValidDate(Date(year, month, day))
    ensures r.Ok? ==> r.value == Date(year, month, day)
  {
    if year < MinYear || year > MaxYear then Err("year " + Decimal(year) + " is out of range")
    else if !(1 <= month <= 12) then Err("month must be in 1..12")
    else if !(1 <= day <= DaysInMonth(year, month)) then Err("day is out of range for month")
    else Ok(Date(year, month, day))
  }

  /** The `%d` and `%m` directives. `strptime` matches them with the regular
      expressions `3[01]|[12]\d|0[1-9]|[1-9]| [1-9]` and `1[0-2]|0[1-9]|[1-9]`. */
  datatype Directive = DayOfMonth | MonthOfYear

  predicate InRange(f: Directive, n: nat) {
    1 <= n <= (if f == MonthOfYear then 12 else 31)
  }

  /** The texts the directive's pattern reads as `n`: `n` zero-padded, and below
      ten also a single digit or, for the day, a digit after a space. */
  predicate WritesField(f: Directive, t: string, n: nat) {
    InRange(f, n) && (t == Pad2(n) || (n < 10 && (t == [DigitChar(n)] || (f == DayOfMonth && t == [' ', DigitChar(n)]))))
  }

  /** The two-character alternatives of the directive's pattern. */
  predicate TwoCharAlternative(f: Directive, a: char, b: char) {
    match f
    case DayOfMonth => (a == '3' && '0' <= b <= '1') || ('1' <= a <= '2' && IsDigit(b)) || ((a == '0' || a == ' ') && '1' <= b <= '9')
    case MonthOfYear => (a == '1' && '0' <= b <= '2') || (a == '0' && '1' <= b <= '9')
  }

  function TwoCharValue(a: char, b: char): nat
    requires (IsDigit(a) || a == ' ') && IsDigit(b)
  {
    (if a == ' ' then 0 else DigitValue(a)) * 10 + DigitValue(b)
  }

  /** The character `next`, if any, is at position `j` of `s`. */
  predicate Follows(s: string, j: nat, next: Option<char>) {
    next.None? || (j < |s| && s[j] == next.value)
  }

  /** The directive's match at position `i` of `s`, where the rest of the pattern
      starts with the literal `next` (`None` when the directive ends it); yields
      the value read and where the field ends. The alternatives are tried in
      order, so a two-character reading wins over a one-digit one. */
  function ReadField(s: string, i: nat, f: Directive, next: Option<char>): (r: Option<(nat, nat)>)
    ensures r.Some? ==> i < r.value.1 <= |s| && Follows(s, r.value.1, next)
    ensures r.Some? ==> WritesField(f, s[i..r.value.1], r.value.0)
  {
    if i + 2 <= |s| && TwoCharAlternative(f, s[i], s[i + 1]) && Follows(s, i + 2, next) then
      TwoCharWritten(f, s[i..i + 2]);
      Some((TwoCharValue(s[i], s[i + 1]), i + 2))
    else if i + 1 <= |s| && '1' <= s[i] <= '9' && Follows(s, i + 1, next) then
      assert [DigitChar(DigitValue(s[i]))] == s[i..i + 1];
      Some((DigitValue(s[i]), i + 1))
    else None
  }

  lemma TwoCharWritten(f: Directive, t: string)
    requires |t| == 2 && TwoCharAlternative(f, t[0], t[1])
    ensures WritesField(f, t, TwoCharValue(t[0], t[1]))
  {
    var n := TwoCharValue(t[0], t[1]);
    if t[0] == ' ' {
      assert t == [' ', DigitChar(n)];
    } else {
      assert n / 10 == DigitValue(t[0]) && n % 10 == DigitValue(t[1]);
      assert t == Pad2(n);
    }
  }

  /** A zero-padded field is read in full whatever follows it. */
  lemma ReadPadded(s: string, i: nat, f: Directive, n: nat, next: Option<char>)
    requires i + 2 <= |s| && InRange(f, n) && s[i..i + 2] == Pad2(n) && Follows(s, i + 2, next)
    ensures ReadField(s, i, f, next) == Some((n, i + 2))
  {
    assert s[i] == Pad2(n)[0] && s[i + 1] == Pad2(n)[1];
    assert TwoCharValue(s[i], s[i + 1]) == n;
  }

  /** A field in any of the directive's forms is read back, provided what follows
      it is not a digit. */
  lemma ReadWritten(s: string, i: nat, j: nat, f: Directive, n: nat, next: Option<char>)
    requires i < j <= |s| && WritesField(f, s[i..j], n) && Follows(s, j, next)
    requires next.None? ==> j == |s|
    requires next.Some? ==> !IsDigit(next.value)
    ensures ReadField(s, i, f, next) == Some((n, j))
  {
    var t := s[i..j];
    if t == Pad2(n) {
      ReadPadded(s, i, f, n, next);
    } else if t == [' ', DigitChar(n)] {
      assert s[i] == ' ' && s[i + 1] == DigitChar(n);
    } else {
      assert t == [DigitChar(n)] && j == i + 1 && s[i] == DigitChar(n);
    }
  }

  /** `t` writes the year, month and day in a form that the whole of `t` matches
      `%Y-%m-%d`: a four-digit year, then month and day as `WritesField` allows. */
  predicate WritesIsoDate(t: string, year: nat, month: nat, day: nat) {
    year < 10000 && |t| > 4 && t[..4] == Pad4(year) && t[4] == '-'
      && (MonthThenDay(t, 6, month, day) || MonthThenDay(t, 7, month, day))
  }

  /** The month ends before position `k`, which holds the second `-`. */
  predicate MonthThenDay(t: string, k: nat, month: nat, day: nat) {
    5 < k < |t| && WritesField(MonthOfYear, t[5..k], month) && t[k] == '-'
      && WritesField(DayOfMonth, t[k + 1..], day)
  }

  /** The match of `%Y-%m-%d`'s pattern at the start of `s`: the year, month and
      day read, and where the match ends. */
  function MatchIsoDate(s: string): (r: Option<(nat, nat, nat, nat)>)
    ensures r.Some? ==> r.value.3 <= |s| && WritesIsoDate(s[..r.value.3], r.value.0, r.value.1, r.value.2)
  {
    if !(DigitsIn(s, 0, 4) && 4 < |s| && s[4] == '-') then None
    else
      match ReadField(s, 5, MonthOfYear, Some('-'))
      case None => None
      case Some((month, me)) =>
        match ReadField(s, me + 1, DayOfMonth, None)
        case None => None
        case Some((day, de)) =>
          FourDigitField(s, 0);
          var t := s[..de];
          assert t[..4] == s[0..4] && t[5..me] == s[5..me] && t[me + 1..] == s[me + 1..de];
          assert MonthThenDay(t, me, month, day);
          Some((NumberIn(s, 0, 4), month, day, de))
  }

  /** `datetime.strptime(s, '%Y-%m-%d')`: no match, text left after the match,
      or a date `date()` rejects are the three errors. */
  function StrptimeIsoDate(s: string): (r: Result<DateTime>)
    ensures r.Ok? ==> ValidDate(r.value.date) && r.value == Midnight(r.value.date)
    ensures r.Ok? ==> WritesIsoDate(s, r.value.date.year, r.value.date.month, r.value.date.day)
  {
    match MatchIsoDate(s)
    case None => Err(NoMatch(s, "%Y-%m-%d"))
    case Some((year, month, day, end)) =>
      if end < |s| then Err(Unconverted(s[end..]))
      else
        assert s[..end] == s;
        match CheckDate(year, month, day)
        case Err(e) => Err(e)
        case Ok(d) => Ok(Midnight(d))
  }

  /** Every text that writes a valid date as `%Y-%m-%d` allows is read as that
      date's midnight, and no other text is. */
  lemma StrptimeIsoDateExactly(s: string, d: Date)
    requires ValidDate(d)
    ensures StrptimeIsoDate(s) == Ok(Midnight(d)) <==> WritesIsoDate(s, d.year, d.month, d.day)
  {
    if WritesIsoDate(s, d.year, d.month, d.day) {
      var k := if MonthThenDay(s, 6, d.month, d.day) then 6 else 7;
      assert s[0..4] == Pad4(d.year);
      ReadWritten(s, 5, k, MonthOfYear, d.month, Some('-'));
      assert s[k + 1..|s|] == s[k + 1..];
      ReadWritten(s, k + 1, |s|, DayOfMonth, d.day, None);
    }
  }

  /** A date written `YYYY-MM-DD` and followed by more text leaves that text
      unconverted. */
  lemma TrailingTextRemains(d: Date, rest: string)
    requires ValidDate(d) && |rest| > 0
    ensures StrptimeIsoDate(IsoDateText(d) + rest) == Err(Unconverted(rest))
  {
    var s := IsoDateText(d) + rest;
    assert s[0..4] == Pad4(d.year) && s[4] == '-';
    assert s[5..7] == Pad2(d.month) && s[7] == '-';
    assert s[8..10] == Pad2(d.day) && s[10..] == rest;
    ReadPadded(s, 5, MonthOfYear, d.month, Some('-'));
    ReadPadded(s, 8, DayOfMonth, d.day, None);
  }

  /** Example: the day pattern reads the `3` of `32` and leaves the `2`. */
  lemma OverlongDayExample()
    ensures StrptimeIsoDate("2024-03-32") == Err(Unconverted("2"))
  {
    var s := "2024-03-32";
    YearText2024(s);
    assert ReadField(s, 5, MonthOfYear, Some('-')) == Some((3, 7));
    assert ReadField(s, 8, DayOfMonth, None) == Some((3, 9));
    assert MatchIsoDate(s) == Some((2024, 3, 3, 9));
    assert s[9..] == "2";
  }

  /** Example: one-digit month and day fields are read. */
  lemma OneDigitExample()
    ensures StrptimeIsoDate("2024-3-5") == Ok(Midnight(Date(2024, 3, 5)))
  {
    var s := "2024-3-5";
    YearText2024(s);
    assert ReadField(s, 5, MonthOfYear, Some('-')) == Some((3, 6));
    assert ReadField(s, 7, DayOfMonth, None) == Some((5, 8));
    assert MatchIsoDate(s) == Some((2024, 3, 5, 8));
  }

  lemma YearText2024(s: string)
    requires |s| >= 4 && s[..4] == "2024"
    ensures DigitsIn(s, 0, 4) && NumberIn(s, 0, 4) == 2024
  {
    assert Pad2(20) == "20" && Pad2(24) == "24";
    assert s[0..4] == "2024" == Pad4(2024);
  }

  /** `datetime.strptime(s, '%d/%m/%Y')`, two-digit day and month only. */
  function StrptimeDayMonthYear(s: string): (r: Result<Date>)
    ensures r.Ok? ==> ValidDate(r.value)
    ensures r.Ok? ==> s == Pad2(r.value.day) + "/" + Pad2(r.value.month) + "/" + Pad4(r.value.year)
  {
    var matched := |s| >= 10 && DigitsIn(s, 0, 2) && s[2] == '/' && DigitsIn(s, 3, 5) && s[5] == '/' && DigitsIn(s, 6, 10)
      && InRange(DayOfMonth, NumberIn(s, 0, 2)) && InRange(MonthOfYear, NumberIn(s, 3, 5));
    if !matched then Err(NoMatch(s, "%d/%m/%Y"))
    else if |s| > 10 then Err(Unconverted(s[10..]))
    else
      match CheckDate(NumberIn(s, 6, 10), NumberIn(s, 3, 5), NumberIn(s, 0, 2))
      case Err(e) => Err(e)
      case Ok(d) =>
        TwoDigitField(s, 0);
        TwoDigitField(s, 3);
        FourDigitField(s, 6);
        assert s == s[0..2] + "/" + s[3..5] + "/" + s[6..10];
        Ok(d)
  }

  /** A `DD/MM` text followed by `/` and `str(year)` that reads as a date is that
      date's `strftime('%d/%m')`, in `year`. */
  lemma DayMonthYearSplit(k: string, year: nat)
    ensures var r := StrptimeDayMonthYear(k + "/" + Decimal(year));
      r.Ok? ==> r.value.year == year && k == DayMonthText(r.value)
  {
    var s := k + "/" + Decimal(year);
    var r := StrptimeDayMonthYear(s);
    if r.Ok? {
      var d := r.value;
      var y := Decimal(year);
      var p := Pad2(d.day) + "/" + Pad2(d.month) + "/" + Pad4(d.year);
      assert s == p;
      assert forall i :: 0 <= i < 10 && i != 2 && i != 5 ==> IsDigit(p[i]) by {
        forall i | 0 <= i < 10 && i != 2 && i != 5 ensures IsDigit(p[i]) {
          if i < 2 { assert p[i] == Pad2(d.day)[i]; }
          else if i < 5 { assert p[i] == Pad2(d.month)[i - 3]; }
          else { assert p[i] == Pad4(d.year)[i - 6]; }
        }
      }
      assert s[|k|] == '/';
      assert |k| == 5;
      assert k == s[..5] == p[..5];
      assert y == s[6..] == p[6..] == Pad4(d.year);
    }
  }

  /** `strftime('%d/%m/%Y')` is read back by `strptime` exactly when the year has
      four digits. */
  lemma DayMonthYearRoundTrip(d: Date)
    requires ValidDate(d)
    ensures StrptimeDayMonthYear(DayMonthYearText(d)).Ok? <==> d.year >= 1000
    ensures d.year >= 1000 ==> StrptimeDayMonthYear(DayMonthYearText(d)) == Ok(d)
  {
    DecimalWidth(d.year);
    var s := DayMonthYearText(d);
    if d.year >= 1000 {
      assert s[0..2] == Pad2(d.day) && s[3..5] == Pad2(d.month) && s[6..10] == Pad4(d.year);
    }
  }

  // ---------------------------------------------------------------------------
  // isoformat and fromisoformat

  function InvalidIso(s: string): string {
    "Invalid isoformat string: '" + s + "'"
  }

  /** `YYYY-MM-DD`, as `date.isoformat()` writes it. */
  function IsoDateText(d: Date): (s: string)
    requires ValidDate(d)
    ensures |s| == 10
  {
    Pad4(d.year) + "-" + Pad2(d.month) + "-" + Pad2(d.day)
  }

  function FractionText(us: int): string
    requires 0 <= us < 1000000
  {
    if us == 0 then "" else "." + Pad6(us)
  }

  function ZoneText(offset: Option<int>): string
    requires offset.Some? ==> -1440 < offset.value < 1440
  {
    match offset
    case None => ""
    case Some(o) =>
      var a := if o < 0 then -o else o;
      (if o < 0 then "-" else "+") + Pad2(a / 60) + ":" + Pad2(a % 60)
  }

  /** `datetime.isoformat(sep)`: seconds always written, microseconds only when
      non-zero, the UTC offset only when aware. */
  function IsoFormatSep(t: DateTime, sep: char): string
    requires ValidDateTime(t)
  {
    IsoDateText(t.date) + [sep] + Pad2(t.hour) + ":" + Pad2(t.minute) + ":" + Pad2(t.second)
      + FractionText(t.micro) + ZoneText(t.offset)
  }

  /** `datetime.isoformat()`, whose separator is `T`. */
  function IsoFormat(t: DateTime): string
    requires ValidDateTime(t)
  {
    IsoFormatSep(t, 'T')
  }

  /** The checks `datetime(...)` applies to parsed fields, in CPython's order. */
  function CheckFields(year: nat, month: nat, day: nat, hour: nat, minute: nat, second: nat, micro: nat, offset: Option<int>): (r: Result<DateTime>)
    requires micro < 1000000 && (offset.Some? ==> -1440 < offset.value < 1440)
    ensures var t := DateTime(Date(year, month, day), hour, minute, second, micro, offset);
      (r.Ok? <==> ValidDateTime(t)) && (r.Ok? ==> r.value == t)
  {
    match CheckDate(year, month, day)
    case Err(e) => Err(e)
    case Ok(date) =>
      if hour >= 24 then Err("hour must be in 0..23")
      else if minute >= 60 then Err("minute must be in 0..59")
      else if second >= 60 then Err("second must be in 0..59")
      else Ok(DateTime(date, hour, minute, second, micro, offset))
  }

  /** An optional `+HH:MM` or `-HH:MM` suffix; `Some(None)` when the text is empty.
      The fields are not range-checked on their own: they become
      `timedelta(hours=HH, minutes=MM)`, and only `timezone`'s limit of less
      than a day applies, so `+05:75` is an offset of 6 hours 15 minutes. */
  function ParseZone(z: string): (r: Option<Option<int>>)
    ensures r.Some? && r.value.Some? ==> -1440 < r.value.value < 1440
  {
    if z == "" then Some(None)
    else if |z| == 6 && (z[0] == '+' || z[0] == '-') && DigitsIn(z, 1, 3) && z[3] == ':' && DigitsIn(z, 4, 6)
      && NumberIn(z, 1, 3) * 60 + NumberIn(z, 4, 6) < 1440
    then
      var m := NumberIn(z, 1, 3) * 60 + NumberIn(z, 4, 6);
      Some(Some(if z[0] == '-' then -m else m))
    else None
  }

  /** An optional fraction of three or six digits after the seconds; returns the
      microseconds and the unread rest. */
  function ParseFraction(u: string): (r: Option<(nat, string)>)
    ensures r.Some? ==> r.value.0 < 1000000
  {
    if |u| == 0 || u[0] != '.' then Some((0, u))
    else if DigitsIn(u, 1, 7) && (|u| == 7 || !IsDigit(u[7])) then
      Pad6Bound(u[1..7]);
      Some((NumberIn(u, 1, 7), u[7..]))
    else if DigitsIn(u, 1, 4) && (|u| == 4 || !IsDigit(u[4])) then
      Pad3Bound(u[1..4]);
      Some((NumberIn(u, 1, 4) * 1000, u[4..]))
    else None
  }

  lemma Pad6Bound(f: string)
    requires |f| == 6 && AllDigits(f)
    ensures ParseNat(f) < 1000000
  {
    ParseNatBound(f);
  }

  lemma Pad3Bound(f: string)
    requires |f| == 3 && AllDigits(f)
    ensures ParseNat(f) < 1000
  {
    ParseNatBound(f);
  }

  lemma {:induction false} ParseNatBound(f: string)
    requires AllDigits(f)
    ensures ParseNat(f) < Pow10(|f|)
  {
    if |f| > 0 {
      ParseNatBound(f[..|f| - 1]);
    }
  }

  /** What follows `HH:MM`: optional `:SS`, optional fraction, optional offset. */
  function ParseTimeTail(t: string): (r: Option<(nat, nat, Option<int>)>)
    ensures r.Some? ==> r.value.1 < 1000000
    ensures r.Some? && r.value.2.Some? ==> -1440 < r.value.2.value < 1440
  {
    if |t| >= 3 && t[0] == ':' && DigitsIn(t, 1, 3) then
      match ParseFraction(t[3..])
      case None => None
      case Some((us, z)) =>
        match ParseZone(z)
        case None => None
        case Some(off) => Some((NumberIn(t, 1, 3), us, off))
    else
      match ParseZone(t)
      case None => None
      case Some(off) => Some((0, 0, off))
  }

  /** `datetime.fromisoformat(s)` on the subset
      `YYYY-MM-DD?HH:MM[:SS[.fff|.ffffff]][(+|-)HH:MM]`, where `?` is any
      character. */
  function FromIsoFormat(s: string): (r: Result<DateTime>)
    ensures r.Ok? ==> ValidDateTime(r.value)
  {
    if |s| < 16 || !IsoHead(s[..16]) then Err(InvalidIso(s))
    else
      var head := s[..16];
      match ParseTimeTail(s[16..])
      case None => Err(InvalidIso(s))
      case Some((second, micro, offset)) =>
        CheckFields(NumberIn(head, 0, 4), NumberIn(head, 5, 7), NumberIn(head, 8, 10),
          NumberIn(head, 11, 13), NumberIn(head, 14, 16), second, micro, offset)
  }

  /** `YYYY-MM-DD?HH:MM`, the part every accepted text starts with; the separator
      at position 10 is not inspected. */
  predicate IsoHead(h: string) {
    |h| == 16 && DigitsIn(h, 0, 4) && h[4] == '-' && DigitsIn(h, 5, 7) && h[7] == '-'
      && DigitsIn(h, 8, 10) && DigitsIn(h, 11, 13) && h[13] == ':' && DigitsIn(h, 14, 16)
  }

  /** The offset `isoformat` writes is the one `fromisoformat` reads. */
  lemma ZoneRoundTrip(offset: Option<int>)
    requires offset.Some? ==> -1440 < offset.value < 1440
    ensures ParseZone(ZoneText(offset)) == Some(offset)
  {
    if offset.Some? {
      var z := ZoneText(offset);
      var o := offset.value;
      var a := if o < 0 then -o else o;
      assert z[1..3] == Pad2(a / 60) && z[4..6] == Pad2(a % 60);
    }
  }

  /** Example: minutes past 59 carry into the hours, and the total must stay
      under a day. */
  lemma OffsetMinutesExample()
    ensures ParseZone("+05:75") == Some(Some(375))
    ensures ParseZone("-23:60") == None
  {
    assert "+05:75"[1..3] == Pad2(5) && "+05:75"[4..6] == Pad2(75);
    assert "-23:60"[1..3] == Pad2(23) && "-23:60"[4..6] == Pad2(60);
  }

  lemma FractionRoundTrip(us: int, z: string)
    requires 0 <= us < 1000000
    requires z == "" || z[0] == '+' || z[0] == '-'
    ensures ParseFraction(FractionText(us) + z) == Some((us, z))
  {
    var u := FractionText(us) + z;
    if us != 0 {
      assert u[0] == '.' && u[1..7] == Pad6(us) && u[7..] == z;
      assert |u| == 7 || u[7] == z[0];
      assert DigitsIn(u, 1, 7) && NumberIn(u, 1, 7) == us;
    } else {
      assert u == z;
      assert |u| == 0 || u[0] != '.';
    }
  }

  lemma TimeTailRoundTrip(t: DateTime)
    requires ValidDateTime(t)
    ensures ParseTimeTail(":" + Pad2(t.second) + FractionText(t.micro) + ZoneText(t.offset))
      == Some((t.second, t.micro, t.offset))
  {
    var z := ZoneText(t.offset);
    var tail := ":" + Pad2(t.second) + FractionText(t.micro) + z;
    assert tail[1..3] == Pad2(t.second);
    assert tail[3..] == FractionText(t.micro) + z;
    FractionRoundTrip(t.micro, z);
    ZoneRoundTrip(t.offset);
  }

  /** `fromisoformat` reads back whatever `isoformat` writes, with any separator. */
  lemma IsoRoundTrip(t: DateTime, sep: char)
    requires ValidDateTime(t)
    ensures FromIsoFormat(IsoFormatSep(t, sep)) == Ok(t)
  {
    var s := IsoFormatSep(t, sep);
    var head := IsoDateText(t.date) + [sep] + Pad2(t.hour) + ":" + Pad2(t.minute);
    var tail := ":" + Pad2(t.second) + FractionText(t.micro) + ZoneText(t.offset);
    assert s == head + tail;
    SplitAt(head, tail);
    HeadRoundTrip(t, sep);
    TimeTailRoundTrip(t);
  }

  lemma SplitAt(a: string, b: string)
    ensures (a + b)[..|a|] == a && (a + b)[|a|..] == b
  {
  }

  /** The date, hour and minute `isoformat` writes are read back. */
  lemma HeadRoundTrip(t: DateTime, sep: char)
    requires ValidDateTime(t)
    ensures var h := IsoDateText(t.date) + [sep] + Pad2(t.hour) + ":" + Pad2(t.minute);
      && |h| == 16 && IsoHead(h)
      && NumberIn(h, 0, 4) == t.date.year && NumberIn(h, 5, 7) == t.date.month
      && NumberIn(h, 8, 10) == t.date.day && NumberIn(h, 11, 13) == t.hour
      && NumberIn(h, 14, 16) == t.minute
  {
    var date := IsoDateText(t.date);
    var h := date + [sep] + Pad2(t.hour) + ":" + Pad2(t.minute);
    assert date[0..4] == Pad4(t.date.year) && date[5..7] == Pad2(t.date.month) && date[8..10] == Pad2(t.date.day);
    assert h[0..4] == Pad4(t.date.year) && h[5..7] == Pad2(t.date.month) && h[8..10] == Pad2(t.date.day);
    assert h[11..13] == Pad2(t.hour) && h[14..16] == Pad2(t.minute);
  }

  /** `strptime(..., '%Y-%m-%d')` reads back the date part of `isoformat`. */
  lemma IsoDateRoundTrip(d: Date)
    requires ValidDate(d)
    ensures StrptimeIsoDate(IsoDateText(d)) == Ok(Midnight(d))
  {
    var s := IsoDateText(d);
    assert s[..4] == Pad4(d.year) && s[5..7] == Pad2(d.month) && s[8..] == Pad2(d.day);
    assert MonthThenDay(s, 7, d.month, d.day);
    StrptimeIsoDateExactly(s, d);
  }
}

=== FILE: dates.dfy ===
/** The proleptic Gregorian calendar of Python's `datetime.date`: years 1 to 9999,
    month lengths, day ordinals and weekdays. */
module Dates {
  import opened Wrappers

  const MinYear := 1
  const MaxYear := 9999

  datatype Date = Date(year: int, month: int, day: int)

  predicate IsLeapYear(y: int) {
    y % 4 == 0 && (y % 100 != 0 || y % 400 == 0)
  }

  function DaysInMonth(y: int, m: int): (n: int)
    requires 1 <= m <= 12
    ensures 28 <= n <= 31
  {
    if m == 2 then (if IsLeapYear(y) then 29 else 28)
    else if m == 4 || m == 6 || m == 9 || m == 11 then 30
    else 31
  }

  function DaysInYear(y: int): int {
    if IsLeapYear(y) then 366 else 365
  }

  /** The dates `datetime.date` accepts without raising `ValueError`. */
  predicate ValidDate(d: Date) {
    && MinYear <= d.year <= MaxYear
    && 1 <= d.month <= 12
    && 1 <= d.day <= DaysInMonth(d.year, d.month)
  }

  function DaysBeforeYear(y: int): int
    requires y >= 1
  {
    (y - 1) * 365 + (y - 1) / 4 - (y - 1) / 100 + (y - 1) / 400
  }

  function DaysBeforeMonth(y: int, m: int): int
    requires 1 <= m <= 13
  {
    if m == 1 then 0 else DaysBeforeMonth(y, m - 1) + DaysInMonth(y, m - 1)
  }

  /** `date.toordinal()`: 1 January of year 1 is day 1. */
  function Ordinal(d: Date): int
    requires ValidDate(d)
  {
    DaysBeforeYear(d.year) + DaysBeforeMonth(d.year, d.month) + d.day
  }

  /** `date.weekday()`: Monday is 0 and Sunday is 6. */
  function Weekday(d: Date): (w: int)
    requires ValidDate(d)
    ensures 0 <= w < 7
  {
    (Ordinal(d) + 6) % 7
  }

  /** The calendar day after `d`, not checked against the year range. */
  function NextDay(d: Date): Date
    requires 1 <= d.month <= 12
  {
    if d.day < DaysInMonth(d.year, d.month) then Date(d.year, d.month, d.day + 1)
    else if d.month < 12 then Date(d.year, d.month + 1, 1)
    else Date(d.year + 1, 1, 1)
  }

  /** The calendar day before `d`, not checked against the year range. */
  function PrevDay(d: Date): Date
    requires 1 <= d.month <= 12
  {
    if d.day > 1 then Date(d.year, d.month, d.day - 1)
    else if d.month > 1 then Date(d.year, d.month - 1, DaysInMonth(d.year, d.month - 1))
    else Date(d.year - 1, 12, 31)
  }

  /** `d + timedelta(days=1)`, which raises `OverflowError` past 31 December 9999. */
  function Tomorrow(d: Date): (r: Option<Date>)
    requires ValidDate(d)
    ensures r.Some? <==> d != Date(MaxYear, 12, 31)
    ensures r.Some? ==> ValidDate(r.value) && Ordinal(r.value) == Ordinal(d) + 1
  {
    if d == Date(MaxYear, 12, 31) then None
    else
      NextDayStep(d);
      Some(NextDay(d))
  }

  /** One year holds `DaysInYear` days. */
  lemma DaysBeforeYearStep(y: int)
    requires y >= 1
    ensures DaysBeforeYear(y + 1) == DaysBeforeYear(y) + DaysInYear(y)
  {
    DivStep(y, 4);
    DivStep(y, 100);
    DivStep(y, 400);
    MultipleOf(y, 4, 25);
    MultipleOf(y, 100, 4);
    var step := DaysBeforeYear(y + 1) - DaysBeforeYear(y);
    assert step == 365 + (y / 4 - (y - 1) / 4) - (y / 100 - (y - 1) / 100) + (y / 400 - (y - 1) / 400);
  }

  /** A multiple of `k * m` is a multiple of `k`. */
  lemma MultipleOf(y: int, k: int, m: int)
    requires k > 0 && m > 0
    ensures y % (k * m) == 0 ==> y % k == 0
  {
    if y % (k * m) == 0 {
      var q := y / (k * m);
      assert y == (k * m) * q;
      assert y == k * (m * q);
      DivUnique(y, k, m * q, 0);
    }
  }

  /** Stepping the dividend down by one lowers the quotient exactly when the
      dividend was a multiple of the divisor. */
  lemma DivStep(y: int, k: int)
    requires k > 0
    ensures (y - 1) / k == (if y % k == 0 then y / k - 1 else y / k)
  {
    var q, r := y / k, y % k;
    if r == 0 {
      DivUnique(y - 1, k, q - 1, k - 1);
    } else {
      DivUnique(y - 1, k, q, r - 1);
    }
  }

  lemma DivUnique(a: int, k: int, q: int, r: int)
    requires k > 0 && 0 <= r < k && a == k * q + r
    ensures a / k == q
  {
    var q', r' := a / k, a % k;
    assert k * q' + r' == k * q + r;
    if q' < q {
      assert k * (q - q') >= k by { MulAtLeast(k, q - q'); }
      assert false;
    } else if q' > q {
      assert k * (q' - q) >= k by { MulAtLeast(k, q' - q); }
      assert false;
    }
  }

  lemma MulAtLeast(k: int, n: int)
    requires k > 0 && n >= 1
    ensures k * n >= k
  {
  }

  /** The twelve months of a year add up to the year's length. */
  lemma MonthsFillYear(y: int)
    ensures DaysBeforeMonth(y, 13) == DaysInYear(y)
  {
    var feb := DaysInMonth(y, 2);
    assert DaysBeforeMonth(y, 2) == 31;
    assert DaysBeforeMonth(y, 3) == 31 + feb;
    assert DaysBeforeMonth(y, 4) == 62 + feb;
    assert DaysBeforeMonth(y, 5) == 92 + feb;
    assert DaysBeforeMonth(y, 6) == 123 + feb;
    assert DaysBeforeMonth(y, 7) == 153 + feb;
    assert DaysBeforeMonth(y, 8) == 184 + feb;
    assert DaysBeforeMonth(y, 9) == 215 + feb;
    assert DaysBeforeMonth(y, 10) == 245 + feb;
    assert DaysBeforeMonth(y, 11) == 276 + feb;
    assert DaysBeforeMonth(y, 12) == 306 + feb;
  }

  /** The successor of a valid date other than the last one is valid, one ordinal
      later, and undone by `PrevDay`. */
  lemma NextDayStep(d: Date)
    requires ValidDate(d) && d != Date(MaxYear, 12, 31)
    ensures ValidDate(NextDay(d))
    ensures Ordinal(NextDay(d)) == Ordinal(d) + 1
    ensures PrevDay(NextDay(d)) == d
  {
    if d.day == DaysInMonth(d.year, d.month) && d.month == 12 {
      DaysBeforeYearStep(d.year);
      MonthsFillYear(d.year);
    }
  }

  /** Weekdays cycle: the day after a Sunday is a Monday. */
  lemma WeekdayAdvances(d: Date)
    requires ValidDate(d) && d != Date(MaxYear, 12, 31)
    ensures ValidDate(NextDay(d))
    ensures Weekday(NextDay(d)) == (Weekday(d) + 1) % 7
  {
    NextDayStep(d);
    ModSucc(Ordinal(d) + 6);
  }

  lemma ModSucc(x: int)
    ensures (x + 1) % 7 == (x % 7 + 1) % 7
  {
  }

  /** An anchor for the weekday count: 15 March 2024 was a Friday. */
  lemma Friday15March2024()
    ensures ValidDate(Date(2024, 3, 15)) && Weekday(Date(2024, 3, 15)) == 4
  {
  }

  /** The integer Python's lexicographic comparison of (year, month, day) amounts to. */
  function DateRank(d: Date): int {
    (d.year * 100 + d.month) * 100 + d.day
  }

  /** A `datetime`: naive when `offset` is None, otherwise aware and `offset`
      minutes east of UTC. */
  datatype DateTime = DateTime(date: Date, hour: int, minute: int, second: int, micro: int, offset: Option<int>)

  /** The values `datetime(...)` and `timezone(...)` accept. */
  predicate ValidDateTime(t: DateTime) {
    && ValidDate(t.date)
    && 0 <= t.hour < 24 && 0 <= t.minute < 60 && 0 <= t.second < 60
    && 0 <= t.micro < 1000000
    && (t.offset.Some? ==> -1440 < t.offset.value < 1440)
  }

  /** The naive midnight that `strptime` returns for a bare date, and that
      `datetime.combine(d, datetime.min.time())` builds. */
  function Midnight(d: Date): DateTime {
    DateTime(d, 0, 0, 0, 0, None)
  }

  /** The integer Python's lexicographic comparison of two naive datetimes amounts to. */
  function WallClockRank(t: DateTime): int {
    (((DateRank(t.date) * 100 + t.hour) * 100 + t.minute) * 100 + t.second) * 1000000 + t.micro
  }

  /** Microseconds since the start of year 1 in UTC: what the comparison of two aware
      datetimes amounts to. */
  function UtcRank(t: DateTime): int
    requires ValidDate(t.date)
  {
    var shift := if t.offset.Some? then t.offset.value else 0;
    ((Ordinal(t.date) * 1440 + t.hour * 60 + t.minute - shift) * 60 + t.second) * 1000000 + t.micro
  }
}

=== FILE: day_listing.dfy ===
/** What the listing built by `exibir_eventos` amounts to: a partition of the
    events by day, in calendar order, under headings that name each day. */
module DayListing {
  import opened Wrappers
  import opened Digits
  import opened Dates
  import opened DateText
  import opened Events
  import opened Sorting
  import opened Grouping

  /** The events of the buckets of `ks`, key after key. */
  function Buckets(ks: seq<string>, es: seq<Evento>): seq<Evento> {
    if |ks| == 0 then [] else Bucket(es, ks[0]) + Buckets(ks[1..], es)
  }

  lemma {:induction false} FlattenGroups(ks: seq<string>, es: seq<Evento>, hoje: string, amanha: string, year: nat)
    ensures Flatten(MakeGroups(ks, es, hoje, amanha, year)) == Buckets(ks, es)
  {
    if |ks| > 0 {
      FlattenGroups(ks[1..], es, hoje, amanha, year);
      var gs := MakeGroups(ks, es, hoje, amanha, year);
      assert gs[1..] == MakeGroups(ks[1..], es, hoje, amanha, year);
    }
  }

  /** A bucket holds every copy of the events with its key and nothing else. */
  lemma {:induction false} BucketCount(es: seq<Evento>, k: string, e: Evento)
    ensures multiset(Bucket(es, k))[e] == if e.dataCurta == k then multiset(es)[e] else 0
  {
    if |es| > 0 {
      var rest := Bucket(es[1..], k);
      BucketCount(es[1..], k, e);
      assert es == [es[0]] + es[1..];
      assert multiset(es)[e] == multiset([es[0]])[e] + multiset(es[1..])[e];
      if es[0].dataCurta == k {
        assert multiset(Bucket(es, k))[e] == multiset([es[0]])[e] + multiset(rest)[e];
      } else {
        assert Bucket(es, k) == rest;
      }
    }
  }

  lemma {:induction false} BucketsCount(ks: seq<string>, es: seq<Evento>, e: Evento)
    requires Distinct(ks)
    ensures multiset(Buckets(ks, es))[e] == if e.dataCurta in ks then multiset(es)[e] else 0
  {
    if |ks| > 0 {
      assert Distinct(ks[1..]);
      BucketsCount(ks[1..], es, e);
      BucketCount(es, ks[0], e);
      assert ks == [ks[0]] + ks[1..];
    }
  }

  /** The groups split the events by key: one group per key that occurs, each
      holding exactly that key's events in input order, nothing lost or repeated. */
  ghost predicate Partitions(gs: seq<DayGroup>, es: seq<Evento>) {
    && (forall i :: 0 <= i < |gs| ==> gs[i].eventos == Bucket(es, gs[i].key) && |gs[i].eventos| > 0)
    && (forall i, j :: 0 <= i < j < |gs| ==> gs[i].key != gs[j].key)
    && (forall k :: k in KeySet(es) <==> exists i :: 0 <= i < |gs| && gs[i].key == k)
    && multiset(Flatten(gs)) == multiset(es)
  }

  /** Every key is a date of `year` and the dates strictly increase. */
  ghost predicate Chronological(gs: seq<DayGroup>, year: nat) {
    && (forall i :: 0 <= i < |gs| ==> KeyDate(gs[i].key, year).Ok?)
    && (forall i, j :: 0 <= i < j < |gs| ==>
          DateRank(KeyDate(gs[i].key, year).value) < DateRank(KeyDate(gs[j].key, year).value))
  }

  /** Each heading names its day (today, tomorrow, or the weekday of the date)
      and ends with the number of events under it. */
  ghost predicate Headed(gs: seq<DayGroup>, today: Date, tomorrow: Date) {
    ValidDate(today) && forall i :: 0 <= i < |gs| ==> HeadsDay(gs[i], today, tomorrow)
  }

  lemma ListingOf(es: seq<Evento>, now: DateTime)
    requires ValidDateTime(now)
    requires |es| > 0 && FirstKeyError(DistinctKeys(es), now.date.year).None? && now.date != Date(MaxYear, 12, 31)
    ensures ExibirEventos(es, now).listing == Ok(Days(Agrupar(es, now)))
  {
  }

  lemma KeysParse(es: seq<Evento>, year: nat)
    requires !SomeKeyFails(es, year)
    ensures FirstKeyError(DistinctKeys(es), year).None?
  {
    var ks := DistinctKeys(es);
    forall j | 0 <= j < |ks| ensures KeyDate(ks[j], year).Ok? {
      assert ks[j] in KeySet(es);
      var i :| 0 <= i < |es| && es[i].dataCurta == ks[j];
      assert KeyDate(es[i].dataCurta, year).Ok?;
    }
  }

  lemma ListingUnfold(es: seq<Evento>, now: DateTime)
    requires ValidDateTime(now)
    requires ExibirEventos(es, now).listing.Ok? && ExibirEventos(es, now).listing.value.Days?
    ensures |es| > 0 && now.date != Date(MaxYear, 12, 31)
    ensures ExibirEventos(es, now).listing.value.groups == Agrupar(es, now)
  {
    assert |es| > 0 && now.date != Date(MaxYear, 12, 31);
    assert !SomeKeyFails(es, now.date.year);
    KeysParse(es, now.date.year);
    ListingOf(es, now);
  }

  lemma ListingKeysParse(es: seq<Evento>, now: DateTime)
    requires ValidDateTime(now)
    requires ExibirEventos(es, now).listing.Ok? && ExibirEventos(es, now).listing.value.Days?
    ensures FirstKeyError(DistinctKeys(es), now.date.year).None?
  {
    assert !SomeKeyFails(es, now.date.year);
    KeysParse(es, now.date.year);
  }

  /** Every key reads as a date of `year`. */
  ghost predicate AllKeysParse(ks: seq<string>, year: nat) {
    forall i :: 0 <= i < |ks| ==> KeyDate(ks[i], year).Ok?
  }

  /** The sorted keys are the distinct keys of the events. */
  lemma SortedKeys(es: seq<Evento>, year: nat)
    ensures var sorted := SortBy(DistinctKeys(es), KeyRank(year));
      && Distinct(sorted)
      && (forall k :: k in sorted <==> k in KeySet(es))
  {
    var ks := DistinctKeys(es);
    var sorted := SortBy(ks, KeyRank(year));
    DistinctPermutation(sorted, ks);
    forall k ensures k in sorted <==> k in ks {
      assert k in sorted <==> k in multiset(sorted);
    }
  }

  /** When every key reads as a date, so does every sorted key. */
  lemma SortedKeysParse(es: seq<Evento>, year: nat)
    requires FirstKeyError(DistinctKeys(es), year).None?
    ensures AllKeysParse(SortBy(DistinctKeys(es), KeyRank(year)), year)
  {
    var ks := DistinctKeys(es);
    var sorted := SortBy(ks, KeyRank(year));
    forall i | 0 <= i < |sorted| ensures KeyDate(sorted[i], year).Ok? {
      assert sorted[i] in multiset(ks);
    }
  }

  lemma GroupsCoverKeys(es: seq<Evento>, now: DateTime)
    requires ValidDateTime(now) && now.date != Date(MaxYear, 12, 31)
    ensures var gs := Agrupar(es, now);
      forall k :: k in KeySet(es) <==> exists i :: 0 <= i < |gs| && gs[i].key == k
  {
    var sorted := SortBy(DistinctKeys(es), KeyRank(now.date.year));
    var gs := Agrupar(es, now);
    SortedKeys(es, now.date.year);
    forall k ensures k in KeySet(es) <==> exists i :: 0 <= i < |gs| && gs[i].key == k {
      if k in KeySet(es) {
        var i :| 0 <= i < |sorted| && sorted[i] == k;
        assert gs[i].key == k;
      }
    }
  }

  /** The buckets of a duplicate-free list of exactly the keys that occur hold
      every event once. */
  lemma BucketsPartition(ks: seq<string>, es: seq<Evento>)
    requires Distinct(ks)
    requires forall k :: k in ks <==> k in KeySet(es)
    ensures multiset(Buckets(ks, es)) == multiset(es)
  {
    forall e ensures multiset(Buckets(ks, es))[e] == multiset(es)[e] {
      BucketsCount(ks, es, e);
      if e in es {
        var i :| 0 <= i < |es| && es[i] == e;
        assert e.dataCurta in KeySet(es);
      }
    }
  }

  lemma GroupsKeepEvents(es: seq<Evento>, now: DateTime)
    requires ValidDateTime(now) && now.date != Date(MaxYear, 12, 31)
    ensures multiset(Flatten(Agrupar(es, now))) == multiset(es)
  {
    var year := now.date.year;
    var sorted := SortBy(DistinctKeys(es), KeyRank(year));
    SortedKeys(es, year);
    FlattenGroups(sorted, es, DayMonthText(now.date), DayMonthText(Tomorrow(now.date).value), year);
    BucketsPartition(sorted, es);
  }

  /** The groups hold each event exactly once, under its own day. */
  lemma AgruparPartitions(es: seq<Evento>, now: DateTime)
    requires ValidDateTime(now) && now.date != Date(MaxYear, 12, 31)
    requires FirstKeyError(DistinctKeys(es), now.date.year).None?
    ensures Partitions(Agrupar(es, now), es)
  {
    SortedKeys(es, now.date.year);
    GroupsCoverKeys(es, now);
    GroupsKeepEvents(es, now);
  }

  /** The days come in calendar order, each once. */
  lemma {:induction false} AgruparChronological(es: seq<Evento>, now: DateTime)
    requires ValidDateTime(now) && now.date != Date(MaxYear, 12, 31)
    requires FirstKeyError(DistinctKeys(es), now.date.year).None?
    ensures Chronological(Agrupar(es, now), now.date.year)
  {
    var year := now.date.year;
    var sorted := SortBy(DistinctKeys(es), KeyRank(year));
    var gs := Agrupar(es, now);
    SortedKeys(es, year);
    SortedKeysParse(es, year);
    forall i, j | 0 <= i < j < |gs|
      ensures DateRank(KeyDate(gs[i].key, year).value) < DateRank(KeyDate(gs[j].key, year).value)
    {
      assert KeyRank(year)(sorted[i]) <= KeyRank(year)(sorted[j]);
      var a, b := KeyDate(sorted[i], year).value, KeyDate(sorted[j], year).value;
      if DateRank(a) == DateRank(b) {
        DateRankInjective(a, b);
      }
    }
  }

  /** The keys of the groups, in listing order. */
  function GroupKeys(gs: seq<DayGroup>): seq<string> {
    seq(|gs|, i requires 0 <= i < |gs| => gs[i].key)
  }

  lemma GroupKeysOf(ks: seq<string>, es: seq<Evento>, hoje: string, amanha: string, year: nat)
    ensures GroupKeys(MakeGroups(ks, es, hoje, amanha, year)) == ks
  {
    var gs := MakeGroups(ks, es, hoje, amanha, year);
    forall i | 0 <= i < |ks| ensures GroupKeys(gs)[i] == ks[i] {
      assert gs[i] == GroupOf(es, ks[i], hoje, amanha, year);
    }
  }

  /** Keys that all read as dates of `year` are told apart by their dates. */
  lemma KeyRankInjective(ks: seq<string>, year: nat)
    requires AllKeysParse(ks, year)
    ensures RankInjective(ks, KeyRank(year))
  {
    forall i, j | 0 <= i < |ks| && 0 <= j < |ks| && KeyRank(year)(ks[i]) == KeyRank(year)(ks[j])
      ensures ks[i] == ks[j]
    {
      var a, b := KeyDate(ks[i], year).value, KeyDate(ks[j], year).value;
      DateRankInjective(a, b);
    }
  }

  /** The sorted keys depend only on which keys occur, when all of them read
      as dates: the dates tell any two keys apart. */
  lemma SortedKeysAgree(a: seq<Evento>, b: seq<Evento>, year: nat)
    requires KeySet(a) == KeySet(b)
    requires !SomeKeyFails(a, year) && !SomeKeyFails(b, year)
    ensures SortBy(DistinctKeys(a), KeyRank(year)) == SortBy(DistinctKeys(b), KeyRank(year))
  {
    var sa := SortBy(DistinctKeys(a), KeyRank(year));
    var sb := SortBy(DistinctKeys(b), KeyRank(year));
    FailureMeansSomeKeyFails(a, year);
    SortedKeys(a, year);
    SortedKeys(b, year);
    SortedKeysParse(a, year);
    DistinctSameElements(sa, sb);
    KeyRankInjective(sa, year);
    SortedUnique(sa, sb, KeyRank(year));
  }

  /** The order of the days depends only on which days occur: two event lists
      with the same keys, all readable, list their days in the same order,
      whatever order the events came in. */
  lemma SameDaysSameOrder(a: seq<Evento>, b: seq<Evento>, now: DateTime)
    requires ValidDateTime(now) && now.date != Date(MaxYear, 12, 31)
    requires KeySet(a) == KeySet(b)
    requires !SomeKeyFails(a, now.date.year) && !SomeKeyFails(b, now.date.year)
    ensures GroupKeys(Agrupar(a, now)) == GroupKeys(Agrupar(b, now))
  {
    var year := now.date.year;
    var sorted := SortBy(DistinctKeys(a), KeyRank(year));
    SortedKeysAgree(a, b, year);
    var hoje, amanha := DayMonthText(now.date), DayMonthText(Tomorrow(now.date).value);
    GroupKeysOf(sorted, a, hoje, amanha, year);
    GroupKeysOf(sorted, b, hoje, amanha, year);
  }

  /** What a day is called: "Hoje" for today, "Amanhã" for a date with
      tomorrow's day and month, and its weekday otherwise. */
  function DayName(d: Date, today: Date, tomorrow: Date): string
    requires ValidDate(d)
  {
    if d == today then "Hoje"
    else if d.day == tomorrow.day && d.month == tomorrow.month then "Amanhã"
    else WeekdayNames[Weekday(d)]
  }

  /** A group's heading is its day's name, its key, and its count. */
  ghost predicate HeadsDay(g: DayGroup, today: Date, tomorrow: Date)
    requires ValidDate(today)
  {
    && KeyDate(g.key, today.year).Ok?
    && g.heading == DayName(KeyDate(g.key, today.year).value, today, tomorrow)
         + ", " + g.key + " (" + Decimal(|g.eventos|) + ")"
  }

  lemma HeadingOf(k: string, es: seq<Evento>, today: Date, tomorrow: Date)
    requires ValidDate(today) && ValidDate(tomorrow)
    requires KeyDate(k, today.year).Ok?
    ensures HeadsDay(GroupOf(es, k, DayMonthText(today), DayMonthText(tomorrow), today.year), today, tomorrow)
  {
    var g := GroupOf(es, k, DayMonthText(today), DayMonthText(tomorrow), today.year);
    var named := DayLabel(k, DayMonthText(today), DayMonthText(tomorrow), today.year);
    assert g.heading == named + " (" + Decimal(|g.eventos|) + ")";
    DayLabelNames(k, today, tomorrow);
  }

  /** `DayLabel`, which compares `DD/MM` texts, names the day its key stands for. */
  lemma DayLabelNames(k: string, today: Date, tomorrow: Date)
    requires ValidDate(today) && ValidDate(tomorrow)
    requires KeyDate(k, today.year).Ok?
    ensures DayLabel(k, DayMonthText(today), DayMonthText(tomorrow), today.year)
      == DayName(KeyDate(k, today.year).value, today, tomorrow) + ", " + k
  {
    var d := KeyDate(k, today.year).value;
    DayMonthTextInjective(d, today);
    DayMonthTextInjective(d, tomorrow);
    if d == today {
      assert "Hoje" + ", " == "Hoje, ";
    } else if d.day == tomorrow.day && d.month == tomorrow.month {
      assert k == DayMonthText(tomorrow) by {
        assert k == Pad2(d.day) + "/" + Pad2(d.month);
      }
      assert "Amanhã" + ", " == "Amanhã, ";
    }
  }

  /** Groups built from keys that read as dates of the current year are headed
      "Hoje", "Amanhã" or the weekday, followed by their counts. */
  lemma HeadingsOf(ks: seq<string>, es: seq<Evento>, today: Date, tomorrow: Date)
    requires ValidDate(today) && ValidDate(tomorrow)
    requires AllKeysParse(ks, today.year)
    ensures Headed(MakeGroups(ks, es, DayMonthText(today), DayMonthText(tomorrow), today.year), today, tomorrow)
  {
    var gs := MakeGroups(ks, es, DayMonthText(today), DayMonthText(tomorrow), today.year);
    forall i | 0 <= i < |gs| ensures HeadsDay(gs[i], today, tomorrow) {
      HeadingOf(ks[i], es, today, tomorrow);
    }
  }

  /** Each day is headed "Hoje", "Amanhã" or its weekday, followed by its count. */
  lemma AgruparHeadings(es: seq<Evento>, now: DateTime)
    requires ValidDateTime(now) && now.date != Date(MaxYear, 12, 31)
    requires FirstKeyError(DistinctKeys(es), now.date.year).None?
    ensures Headed(Agrupar(es, now), now.date, Tomorrow(now.date).value)
  {
    var year, tomorrow := now.date.year, Tomorrow(now.date).value;
    var sorted := SortBy(DistinctKeys(es), KeyRank(year));
    assert Agrupar(es, now) == MakeGroups(sorted, es, DayMonthText(now.date), DayMonthText(tomorrow), year);
    SortedKeysParse(es, year);
    HeadingsOf(sorted, es, now.date, tomorrow);
  }

  /** Whatever `exibir_eventos` lists partitions the events by day, in calendar
      order, under headings that name each day. */
  lemma ListingMeaning(es: seq<Evento>, now: DateTime)
    requires ValidDateTime(now)
    requires ExibirEventos(es, now).listing.Ok? && ExibirEventos(es, now).listing.value.Days?
    ensures Tomorrow(now.date).Some?
    ensures var gs := ExibirEventos(es, now).listing.value.groups;
      && Partitions(gs, es)
      && Chronological(gs, now.date.year)
      && Headed(gs, now.date, Tomorrow(now.date).value)
  {
    ListingUnfold(es, now);
    ListingKeysParse(es, now);
    AgruparPartitions(es, now);
    AgruparChronological(es, now);
    AgruparHeadings(es, now);
  }

  /** A bucket keeps the order of its events, so the bucket of a sorted list is sorted. */
  lemma {:induction false} BucketSorted(es: seq<Evento>, k: string, rank: Evento -> int)
    requires SortedBy(es, rank)
    ensures SortedBy(Bucket(es, k), rank)
  {
    if |es| > 0 {
      assert SortedBy(es[1..], rank);
      BucketSorted(es[1..], k, rank);
      var rest := Bucket(es[1..], k);
      if es[0].dataCurta == k {
        forall i | 0 <= i < |rest| ensures rank(es[0]) <= rank(rest[i]) {
          var j :| 0 <= j < |es[1..]| && es[1..][j] == rest[i];
          assert es[j + 1] == rest[i];
        }
        SortedCons(es[0], rest, rank);
        assert Bucket(es, k) == [es[0]] + rest;
      } else {
        assert Bucket(es, k) == [] + rest;
      }
    }
  }

  /** Whether some key fails depends only on which events there are. */
  lemma SomeKeyFailsPermutation(a: seq<Evento>, b: seq<Evento>, year: nat)
    requires multiset(a) == multiset(b)
    ensures SomeKeyFails(a, year) <==> SomeKeyFails(b, year)
  {
    if SomeKeyFails(a, year) {
      var i :| 0 <= i < |a| && KeyDate(a[i].dataCurta, year).Err?;
      assert a[i] in multiset(b);
      var j :| 0 <= j < |b| && b[j] == a[i];
    }
    if SomeKeyFails(b, year) {
      var j :| 0 <= j < |b| && KeyDate(b[j].dataCurta, year).Err?;
      assert b[j] in multiset(a);
      var i :| 0 <= i < |a| && a[i] == b[j];
    }
  }
}

=== FILE: digits.dfy ===
/** Decimal digit strings: parsing and the zero-padded and unpadded renderings
    that strftime, isoformat and f-strings produce. */
module Digits {

  predicate IsDigit(c: char) {
    '0' <= c <= '9'
  }

  predicate AllDigits(s: string) {
    forall i :: 0 <= i < |s| ==> IsDigit(s[i])
  }

  function DigitValue(c: char): (v: nat)
    requires IsDigit(c)
    ensures v < 10
  {
    (c as int - '0' as int) as nat
  }

  function DigitChar(v: nat): (c: char)
    requires v < 10
    ensures IsDigit(c) && DigitValue(c) == v
  {
    (v + '0' as int) as char
  }

  /** The value of a string of decimal digits, most significant first. */
  function ParseNat(s: string): nat
    requires AllDigits(s)
  {
    if |s| == 0 then 0 else 10 * ParseNat(s[..|s| - 1]) + DigitValue(s[|s| - 1])
  }

  /** Appending a digit multiplies the value by ten and adds the digit. */
  lemma ParseNatSnoc(s: string, c: char)
    requires AllDigits(s) && IsDigit(c)
    ensures AllDigits(s + [c]) && ParseNat(s + [c]) == 10 * ParseNat(s) + DigitValue(c)
  {
    assert (s + [c])[..|s|] == s;
  }

  function Pow10(n: nat): (p: nat)
    ensures p >= 1
  {
    if n == 0 then 1 else 10 * Pow10(n - 1)
  }

  /** The value of a concatenation: the left part shifted by the right part's width. */
  lemma {:induction false} ParseNatConcat(a: string, b: string)
    requires AllDigits(a) && AllDigits(b)
    ensures AllDigits(a + b) && ParseNat(a + b) == ParseNat(a) * Pow10(|b|) + ParseNat(b)
  {
    if |b| > 0 {
      var b' := b[..|b| - 1];
      var c := b[|b| - 1];
      assert b == b' + [c];
      assert a + b == (a + b') + [c];
      ParseNatConcat(a, b');
      ParseNatSnoc(a + b', c);
      ParseNatSnoc(b', c);
      ShiftDigit(ParseNat(a), Pow10(|b'|), ParseNat(b'), DigitValue(c));
    } else {
      assert a + b == a;
    }
  }

  lemma ShiftDigit(pa: int, w: int, pb: int, v: int)
    ensures 10 * (pa * w + pb) + v == pa * (10 * w) + (10 * pb + v)
  {
  }

  /** `%02d`: two digits, zero padded. */
  function Pad2(n: nat): (r: string)
    requires n < 100
    ensures |r| == 2 && AllDigits(r) && ParseNat(r) == n
  {
    ParseNatSnoc([], DigitChar(n / 10));
    ParseNatSnoc([DigitChar(n / 10)], DigitChar(n % 10));
    [DigitChar(n / 10), DigitChar(n % 10)]
  }

  /** `%04d`: four digits, zero padded. */
  function Pad4(n: nat): (r: string)
    requires n < 10000
    ensures |r| == 4 && AllDigits(r) && ParseNat(r) == n
  {
    var hi, lo := Pad2(n / 100), Pad2(n % 100);
    ParseNatSnoc(hi, lo[0]);
    ParseNatSnoc(hi + [lo[0]], lo[1]);
    assert hi + lo == hi + [lo[0]] + [lo[1]];
    assert ParseNat(lo) == 10 * ParseNat([lo[0]]) + DigitValue(lo[1]) by {
      assert lo[..1] == [lo[0]];
    }
    hi + lo
  }

  /** `%06d`: six digits, zero padded (microseconds). */
  function Pad6(n: nat): (r: string)
    requires n < 1000000
    ensures |r| == 6 && AllDigits(r) && ParseNat(r) == n
  {
    var hi, lo := Pad2(n / 10000), Pad4(n % 10000);
    ParseNatConcat(hi, lo);
    assert Pow10(4) == 10000;
    hi + lo
  }

  /** `%03d`: three digits, zero padded (milliseconds). */
  function Pad3(n: nat): (r: string)
    requires n < 1000
    ensures |r| == 3 && AllDigits(r) && ParseNat(r) == n
  {
    var hi, lo := [DigitChar(n / 100)], Pad2(n % 100);
    ParseNatConcat(hi, lo);
    assert ParseNat(hi) == n / 100 by { ParseNatSnoc([], DigitChar(n / 100)); assert [] + hi == hi; }
    assert Pow10(2) == 100;
    hi + lo
  }

  /** `str(n)`: the shortest decimal rendering, no leading zero. */
  function Decimal(n: nat): (r: string)
    ensures 1 <= |r| && AllDigits(r) && ParseNat(r) == n
    ensures n < 10 <==> |r| == 1
    ensures r[0] != '0' || n == 0
  {
    if n < 10 then [DigitChar(n)]
    else
      var p := Decimal(n / 10);
      var r := p + [DigitChar(n % 10)];
      assert r[..|r| - 1] == p;
      r
  }

  /** A four-digit number renders as exactly four characters, the same as `%04d`;
      a smaller one renders shorter. */
  lemma DecimalWidth(n: nat)
    ensures 1000 <= n < 10000 ==> Decimal(n) == Pad4(n)
    ensures n < 1000 ==> |Decimal(n)| < 4
  {
    DecimalLength(n);
    if 1000 <= n < 10000 {
      ParseNatInjective(Decimal(n), Pad4(n));
    }
  }

  /** The rendering has as many characters as the number has digits. */
  lemma {:induction false} DecimalLength(n: nat)
    ensures n < 10 ==> |Decimal(n)| == 1
    ensures 10 <= n < 100 ==> |Decimal(n)| == 2
    ensures 100 <= n < 1000 ==> |Decimal(n)| == 3
    ensures 1000 <= n < 10000 ==> |Decimal(n)| == 4
  {
    if n >= 10 {
      DecimalLength(n / 10);
      assert |Decimal(n)| == |Decimal(n / 10)| + 1;
    }
  }

  /** A digit string is determined by its length and value. */
  lemma {:induction false} ParseNatInjective(a: string, b: string)
    requires AllDigits(a) && AllDigits(b) && |a| == |b|
    requires ParseNat(a) == ParseNat(b)
    ensures a == b
  {
    if |a| > 0 {
      var n := |a| - 1;
      assert DigitValue(a[n]) == ParseNat(a) % 10 && DigitValue(b[n]) == ParseNat(b) % 10;
      assert a[n] == b[n];
      ParseNatInjective(a[..n], b[..n]);
      assert a == a[..n] + [a[n]] && b == b[..n] + [b[n]];
    }
  }
}

=== FILE: events.dfy ===
/** `formatar_evento`: the total map from an event resource of the calendar API to
    the widget's own event record. */
module Events {
  import opened Wrappers
  import opened Digits
  import opened Dates
  import opened DateText
  import MonthWindow

  /** The `start` object of an event resource: `dateTime` for a timed event,
      `date` for an all-day one; `None` is an absent key. */
  datatype Start = Start(dateTime: Option<string>, date: Option<string>)

  /** An event resource, reduced to the keys the widget reads. */
  datatype RawEvent = RawEvent(start: Option<Start>, summary: Option<string>, colorId: Option<string>)

  /** The widget's event record. `hora` is `None` when the record has no `hora` key;
      `dataObj` is the parsed start, kept for sorting. */
  datatype Evento = Evento(
    diaInteiro: bool,
    data: string,
    dataCurta: string,
    hora: Option<string>,
    titulo: string,
    cor: string,
    dataObj: DateTime)

  const DefaultTitle := "Evento sem título"
  const DefaultColor := "1"
  const UnknownTime := "??:??"
  const ErrorPrefix := "Erro no evento: "

  /** What every record `formatar_evento` returns satisfies: a valid start, the
      dates written from it, `hora` present exactly for timed events. */
  predicate WellFormed(e: Evento) {
    && ValidDateTime(e.dataObj)
    && e.data == DayMonthYearText(e.dataObj.date)
    && e.dataCurta == DayMonthText(e.dataObj.date)
    && (e.hora.Some? <==> !e.diaInteiro)
  }

  /** `strftime('%H:%M')` */
  function HourMinuteText(t: DateTime): (s: string)
    requires 0 <= t.hour < 24 && 0 <= t.minute < 60
    ensures |s| == 5 && s[2] == ':'
  {
    Pad2(t.hour) + ":" + Pad2(t.minute)
  }

  /** `s.replace('Z', '+00:00')`: every `Z`, not only a trailing one. */
  function ReplaceZ(s: string): (r: string)
    ensures 'Z' !in r
    ensures 'Z' !in s ==> r == s
  {
    if |s| == 0 then ""
    else
      var rest := ReplaceZ(s[1..]);
      var r := (if s[0] == 'Z' then "+00:00" else [s[0]]) + rest;
      assert 'Z' !in s ==> r == [s[0]] + s[1..] == s;
      r
  }

  lemma {:induction false} ReplaceZAppend(a: string, b: string)
    ensures ReplaceZ(a + b) == ReplaceZ(a) + ReplaceZ(b)
  {
    if |a| > 0 {
      var head := if a[0] == 'Z' then "+00:00" else [a[0]];
      assert (a + b)[0] == a[0] && (a + b)[1..] == a[1..] + b;
      ReplaceZAppend(a[1..], b);
      assert ReplaceZ(a + b) == head + (ReplaceZ(a[1..]) + ReplaceZ(b));
      assert ReplaceZ(a) == head + ReplaceZ(a[1..]);
      Associate(head, ReplaceZ(a[1..]), ReplaceZ(b));
    } else {
      assert a + b == b;
    }
  }

  lemma Associate<T>(x: seq<T>, y: seq<T>, z: seq<T>)
    ensures x + (y + z) == (x + y) + z
  {
  }

  /** How `formatar_evento` reads the start text: a `Z` anywhere selects
      `fromisoformat` on the text with every `Z` replaced by `+00:00`; else a `T`
      selects `fromisoformat` on the text as is; otherwise `strptime` reads it
      with `%Y-%m-%d`. */
  function ParseStart(inicio: string): (r: Result<DateTime>)
    ensures r.Ok? ==> ValidDateTime(r.value)
    ensures r.Ok? && 'Z' !in inicio && 'T' !in inicio ==> r.value == Midnight(r.value.date)
  {
    if 'Z' in inicio then FromIsoFormat(ReplaceZ(inicio))
    else if 'T' in inicio then FromIsoFormat(inicio)
    else StrptimeIsoDate(inicio)
  }

  /** `event['start'].get('dateTime', event['start'].get('date'))` followed by the
      parse; a missing `start` raises `KeyError`, a missing value `TypeError`. */
  function ParseEventStart(e: RawEvent): (r: Result<DateTime>)
    ensures r.Ok? ==> ValidDateTime(r.value)
    ensures e.start.None? || (e.start.value.dateTime.None? && e.start.value.date.None?) ==> r.Err?
  {
    match e.start
    case None => Err("'start'")
    case Some(st) =>
      var inicio := if st.dateTime.Some? then st.dateTime else st.date;
      match inicio
      case None => Err("argument of type 'NoneType' is not iterable")
      case Some(text) => ParseStart(text)
  }

  /** `formatar_evento`'s all-day test: it looks at which keys `start` has, not at
      which parse succeeded. */
  predicate HasDateOnly(e: RawEvent) {
    e.start.Some? && e.start.value.date.Some? && e.start.value.dateTime.None?
  }

  function TitleOf(e: RawEvent): string {
    if e.summary.Some? then e.summary.value else DefaultTitle
  }

  function ColorOf(e: RawEvent): string {
    if e.colorId.Some? then e.colorId.value else DefaultColor
  }

  /** The record `formatar_evento` returns when reading the start raised (lines
      146-154): a timed event of today at hour `??:??`, in the default colour,
      titled with the error, with the current instant as its start. */
  function Fallback(message: string, now: DateTime): (r: Evento)
    requires ValidDateTime(now)
    ensures WellFormed(r) && !r.diaInteiro && r.hora == Some(UnknownTime)
    ensures r.dataCurta == DayMonthText(now.date) && r.data[..5] == r.dataCurta && r.dataObj == now
    ensures r.titulo == ErrorPrefix + message && r.cor == DefaultColor
  {
    Evento(false, DayMonthYearText(now.date), DayMonthText(now.date), Some(UnknownTime),
      ErrorPrefix + message, DefaultColor, now)
  }

  /** `formatar_evento(event)`, with `now` standing for `datetime.now()`. It never
      fails: a start that cannot be read yields the fallback record. */
  function FormatarEvento(e: RawEvent, now: DateTime): (r: Evento)
    requires ValidDateTime(now)
    ensures WellFormed(r)
    ensures r.diaInteiro <==> HasDateOnly(e) && ParseEventStart(e).Ok?
    ensures e.colorId.None? ==> r.cor == DefaultColor
    ensures ParseEventStart(e).Ok? ==>
      && r.dataObj == ParseEventStart(e).value
      && r.titulo == TitleOf(e) && r.cor == ColorOf(e)
      && (!r.diaInteiro ==> r.hora == Some(HourMinuteText(r.dataObj)))
    ensures ParseEventStart(e).Err? ==>
      && r.hora == Some(UnknownTime) && r.cor == DefaultColor && r.dataObj == now
      && r.titulo == ErrorPrefix + ParseEventStart(e).message
  {
    match ParseEventStart(e)
    case Err(message) => Fallback(message, now)
    case Ok(t) =>
      var allDay := HasDateOnly(e);
      Evento(allDay, DayMonthYearText(t.date), DayMonthText(t.date),
        if allDay then None else Some(HourMinuteText(t)), TitleOf(e), ColorOf(e), t)
  }

  /** A character `isoformat` writes only as its separator: not a digit and none
      of `-`, `:`, `.` and `+`. */
  predicate Foreign(c: char) {
    !IsDigit(c) && c != '-' && c != ':' && c != '.' && c != '+'
  }

  lemma DigitsLack(s: string, c: char)
    requires AllDigits(s) && !IsDigit(c)
    ensures c !in s
  {
  }

  /** `isoformat(sep)` writes its separator at position 10 and no other foreign
      character. */
  lemma IsoFormatLetters(t: DateTime, sep: char, c: char)
    requires ValidDateTime(t) && Foreign(c) && c != sep
    ensures c !in IsoFormatSep(t, sep) && IsoFormatSep(t, sep)[10] == sep
  {
    var date := IsoDateText(t.date);
    DateLacks(t.date, c);
    var s1 := date + [sep];
    LackJoin(date, [sep], c);
    assert s1[10] == sep;
    var s2 := s1 + Pad2(t.hour) + ":";
    DigitsLack(Pad2(t.hour), c);
    LackJoin(s1, Pad2(t.hour) + ":", c);
    var s3 := s2 + Pad2(t.minute) + ":";
    DigitsLack(Pad2(t.minute), c);
    LackJoin(s2, Pad2(t.minute) + ":", c);
    var s4 := s3 + Pad2(t.second);
    DigitsLack(Pad2(t.second), c);
    LackJoin(s3, Pad2(t.second), c);
    var s5 := s4 + FractionText(t.micro);
    FractionLacks(t.micro, c);
    LackJoin(s4, FractionText(t.micro), c);
    ZoneLacks(t.offset, c);
    LackJoin(s5, ZoneText(t.offset), c);
    assert IsoFormatSep(t, sep) == s5 + ZoneText(t.offset);
    assert (s5 + ZoneText(t.offset))[10] == sep;
  }

  lemma LackJoin(a: string, b: string, c: char)
    requires c !in a && c !in b
    ensures c !in a + b
  {
  }

  lemma DateLacks(d: Date, c: char)
    requires ValidDate(d) && Foreign(c)
    ensures c !in IsoDateText(d)
  {
    DigitsLack(Pad4(d.year), c);
    DigitsLack(Pad2(d.month), c);
    DigitsLack(Pad2(d.day), c);
  }

  lemma FractionLacks(us: int, c: char)
    requires 0 <= us < 1000000 && Foreign(c)
    ensures c !in FractionText(us)
  {
    if us != 0 {
      DigitsLack(Pad6(us), c);
    }
  }

  lemma ZoneLacks(offset: Option<int>, c: char)
    requires (offset.Some? ==> -1440 < offset.value < 1440) && Foreign(c)
    ensures c !in ZoneText(offset)
  {
    if offset.Some? {
      var o := offset.value;
      var a := if o < 0 then -o else o;
      DigitsLack(Pad2(a / 60), c);
      DigitsLack(Pad2(a % 60), c);
    }
  }

  /** A timed event whose `dateTime` was written by `isoformat` is read back to the
      same instant and shown with its own hour and minute. */
  lemma TimedRoundTrip(t: DateTime, summary: Option<string>, colorId: Option<string>, now: DateTime)
    requires ValidDateTime(t) && ValidDateTime(now)
    ensures var r := FormatarEvento(RawEvent(Some(Start(Some(IsoFormat(t)), None)), summary, colorId), now);
      && !r.diaInteiro && r.dataObj == t
      && r.hora == Some(Pad2(t.hour) + ":" + Pad2(t.minute))
      && r.dataCurta == Pad2(t.date.day) + "/" + Pad2(t.date.month)
  {
    IsoFormatLetters(t, 'T', 'Z');
    IsoRoundTrip(t, 'T');
  }

  /** A `dateTime` written by `isoformat` with a `Z` appended (the form the query
      window uses) is read as the same wall-clock time, aware, at offset zero,
      whatever the separator. */
  lemma UtcRoundTrip(t: DateTime, sep: char)
    requires ValidDateTime(t) && t.offset.None? && sep != 'Z'
    ensures ParseStart(IsoFormatSep(t, sep) + "Z") == Ok(t.(offset := Some(0)))
  {
    var u := t.(offset := Some(0));
    IsoFormatLetters(t, sep, 'Z');
    ReplaceTrailingZ(IsoFormatSep(t, sep));
    AppendUtcZone(t, sep);
    IsoRoundTrip(u, sep);
  }

  /** The `dateTime` texts of timed events: `isoformat` of an aware instant, which
      ends in its UTC offset, or of a naive one with `Z` appended. */
  function TimedText(t: DateTime): string
    requires ValidDateTime(t)
  {
    if t.offset.Some? then IsoFormat(t) else IsoFormat(t) + "Z"
  }

  /** Both forms of `TimedText` are read as aware instants: the offset form as
      written, the `Z` form at offset zero. */
  lemma TimedTextAware(t: DateTime)
    requires ValidDateTime(t)
    ensures ParseStart(TimedText(t)) == Ok(if t.offset.Some? then t else t.(offset := Some(0)))
  {
    if t.offset.Some? {
      IsoFormatLetters(t, 'T', 'Z');
      IsoRoundTrip(t, 'T');
    } else {
      UtcRoundTrip(t, 'T');
    }
  }

  /** A `dateTime` with a space where `isoformat` puts its `T` is read when it ends
      in `Z`; without the `Z` it reaches `strptime`, which leaves the time
      unconverted. */
  lemma SpaceSeparatedStart(t: DateTime)
    requires ValidDateTime(t) && t.offset.None?
    ensures ParseStart(IsoFormatSep(t, ' ') + "Z") == Ok(t.(offset := Some(0)))
    ensures ParseStart(IsoFormatSep(t, ' ')) == Err(Unconverted(IsoFormatSep(t, ' ')[10..]))
  {
    var s := IsoFormatSep(t, ' ');
    UtcRoundTrip(t, ' ');
    IsoFormatLetters(t, ' ', 'Z');
    IsoFormatLetters(t, ' ', 'T');
    assert s == IsoDateText(t.date) + s[10..];
    TrailingTextRemains(t.date, s[10..]);
  }

  lemma ReplaceTrailingZ(x: string)
    requires 'Z' !in x
    ensures ReplaceZ(x + "Z") == x + "+00:00"
  {
    ReplaceZAppend(x, "Z");
    assert "Z"[1..] == "";
  }

  /** Writing an aware datetime at offset zero appends `+00:00` to the naive text. */
  lemma AppendUtcZone(t: DateTime, sep: char)
    requires ValidDateTime(t) && t.offset.None?
    ensures IsoFormatSep(t.(offset := Some(0)), sep) == IsoFormatSep(t, sep) + "+00:00"
  {
    assert ZoneText(Some(0)) == "+" + Pad2(0) + ":" + Pad2(0);
  }

  /** An all-day event whose `date` is `YYYY-MM-DD` is read as that day, with
      no time, and written back as `DD/MM/YYYY`. */
  lemma AllDayRoundTrip(d: Date, summary: Option<string>, colorId: Option<string>, now: DateTime)
    requires ValidDate(d) && ValidDateTime(now)
    ensures var r := FormatarEvento(RawEvent(Some(Start(None, Some(IsoDateText(d)))), summary, colorId), now);
      && r.diaInteiro && r.hora.None? && r.dataObj == Midnight(d)
      && r.data == DayMonthYearText(d)
  {
    var s := IsoDateText(d);
    DateLacks(d, 'Z');
    DateLacks(d, 'T');
    IsoDateRoundTrip(d);
  }

  /** The query bounds of `get_inicio_fim_mes` read back, through the same start
      parser, as the first and last instants of the month in UTC. */
  lemma WindowBoundsReadBack(today: Date)
    requires ValidDate(today) && MonthWindow.GetInicioFimMes(today).Ok?
    ensures var (first, last) := MonthWindow.MonthBounds(today).value;
      var (inicio, fim) := MonthWindow.GetInicioFimMes(today).value;
      && ParseStart(inicio) == Ok(DateTime(first, 0, 0, 0, 0, Some(0)))
      && ParseStart(fim) == Ok(DateTime(last, 23, 59, 59, 999999, Some(0)))
  {
    var (first, last) := MonthWindow.MonthBounds(today).value;
    UtcRoundTrip(Midnight(first), 'T');
    UtcRoundTrip(MonthWindow.EndOfDay(last), 'T');
  }

  /** Example: `{start: {date: "2024-03-15"}, summary: "Trip"}`. */
  lemma TripExample(now: DateTime, text: string)
    requires ValidDateTime(now) && text == "2024-03-15"
    ensures var r := FormatarEvento(RawEvent(Some(Start(None, Some(text))), Some("Trip"), None), now);
      r.diaInteiro && r.data == "15/03/2024" && r.titulo == "Trip" && r.cor == "1" && r.hora.None?
  {
    var d := Date(2024, 3, 15);
    TripText(d);
    AllDayRoundTrip(d, Some("Trip"), None, now);
  }

  lemma TripText(d: Date)
    requires d == Date(2024, 3, 15)
    ensures IsoDateText(d) == "2024-03-15" && DayMonthYearText(d) == "15/03/2024"
  {
    ExampleDigits();
    Year2024();
  }

  /** The zero-padded renderings the examples use. */
  lemma ExampleDigits()
    ensures Pad2(0) == "00" && Pad2(3) == "03" && Pad2(14) == "14"
    ensures Pad2(15) == "15" && Pad2(30) == "30"
  {
  }

  lemma Year2024()
    ensures Pad4(2024) == "2024" && Decimal(2024) == "2024"
  {
    assert Pad2(20) == "20" && Pad2(24) == "24";
    DecimalWidth(2024);
  }

  /** Example: `{start: {dateTime: "2024-03-15T14:30:00Z"}, summary: "Call", colorId: "3"}`. */
  lemma CallExample(now: DateTime, text: string)
    requires ValidDateTime(now) && text == "2024-03-15T14:30:00Z"
    ensures var r := FormatarEvento(RawEvent(Some(Start(Some(text), None)), Some("Call"), Some("3")), now);
      !r.diaInteiro && r.hora == Some("14:30") && r.cor == "3" && r.titulo == "Call"
      && r.dataObj.offset == Some(0)
  {
    var u := DateTime(Date(2024, 3, 15), 14, 30, 0, 0, Some(0));
    var e := RawEvent(Some(Start(Some(text), None)), Some("Call"), Some("3"));
    CallStart(text);
    assert ParseEventStart(e) == Ok(u);
    assert HourMinuteText(u) == "14:30" by {
      ExampleDigits();
    }
  }

  lemma CallStart(text: string)
    requires text == "2024-03-15T14:30:00Z"
    ensures ParseStart(text) == Ok(DateTime(Date(2024, 3, 15), 14, 30, 0, 0, Some(0)))
  {
    var t := DateTime(Date(2024, 3, 15), 14, 30, 0, 0, None);
    CallText();
    AppendZ();
    assert text == IsoFormat(t) + "Z";
    UtcRoundTrip(t, 'T');
  }

  lemma AppendZ()
    ensures "2024-03-15T14:30:00" + "Z" == "2024-03-15T14:30:00Z"
  {
  }

  lemma CallText()
    ensures IsoFormat(DateTime(Date(2024, 3, 15), 14, 30, 0, 0, None)) == "2024-03-15T14:30:00"
  {
    ExampleDigits();
    Year2024();
    TripText(Date(2024, 3, 15));
  }

  /** Example: a start that is not a date falls back to an error record. */
  lemma MalformedExample(now: DateTime)
    requires ValidDateTime(now)
    ensures var r := FormatarEvento(RawEvent(Some(Start(None, Some("15/03/2024"))), Some("Trip"), Some("5")), now);
      && !r.diaInteiro && r.hora == Some(UnknownTime) && r.cor == DefaultColor && r.dataObj == now
      && r.titulo == ErrorPrefix + NoMatch("15/03/2024", "%Y-%m-%d")
  {
    var e := RawEvent(Some(Start(None, Some("15/03/2024"))), Some("Trip"), Some("5"));
    assert ParseEventStart(e) == Err(NoMatch("15/03/2024", "%Y-%m-%d")) by {
      var s := "15/03/2024";
      assert !IsDigit(s[0..4][2]);
      assert 'Z' !in s && 'T' !in s;
      assert StrptimeIsoDate(s) == Err(NoMatch(s, "%Y-%m-%d"));
    }
  }
}

=== FILE: grouping.dfy ===
/** The pure part of `exibir_eventos`: the event counter, the placeholder for an
    empty month, grouping by `data_curta`, chronological ordering of the groups
    and their labels. */
module Grouping {
  import opened Wrappers
  import opened Digits
  import opened Dates
  import opened DateText
  import opened Events
  import opened Sorting
  import Palette

  /** One day of the listing: its `DD/MM` key, its label and its events. */
  datatype DayGroup = DayGroup(key: string, heading: string, eventos: seq<Evento>)

  /** The event area: the empty-month placeholder, or the day groups in order. */
  datatype Listing = Placeholder | Days(groups: seq<DayGroup>)

  /** What `exibir_eventos` leaves behind: the counter text, and the listing or
      the message of the exception that interrupted it. */
  datatype Shown = Shown(counter: string, listing: Result<Listing>)

  const EmptyText := "Sem eventos para este mês."
  const WeekdayNames: seq<string> := ["Segunda", "Terça", "Quarta", "Quinta", "Sexta", "Sábado", "Domingo"]

  /** The counter label `exibir_eventos` sets first: the number of events in
      parentheses. */
  function CounterText(n: nat): string {
    "(" + Decimal(n) + " eventos)"
  }

  /** The `data_curta` values that occur among the events. */
  ghost function KeySet(es: seq<Evento>): set<string> {
    set i | 0 <= i < |es| :: es[i].dataCurta
  }

  lemma KeySetSnoc(es: seq<Evento>)
    requires |es| > 0
    ensures KeySet(es) == KeySet(es[..|es| - 1]) + {es[|es| - 1].dataCurta}
  {
    var init := es[..|es| - 1];
    forall k | k in KeySet(es) ensures k in KeySet(init) + {es[|es| - 1].dataCurta} {
      var i :| 0 <= i < |es| && es[i].dataCurta == k;
      if i < |es| - 1 {
        assert init[i] == es[i];
      }
    }
    forall k | k in KeySet(init) ensures k in KeySet(es) {
      var i :| 0 <= i < |init| && init[i].dataCurta == k;
      assert es[i] == init[i];
    }
  }

  lemma KeySetCons(es: seq<Evento>)
    requires |es| > 0
    ensures KeySet(es) == {es[0].dataCurta} + KeySet(es[1..])
  {
    forall k | k in KeySet(es) ensures k in {es[0].dataCurta} + KeySet(es[1..]) {
      var i :| 0 <= i < |es| && es[i].dataCurta == k;
      if i > 0 {
        assert es[1..][i - 1] == es[i];
      }
    }
    forall k | k in KeySet(es[1..]) ensures k in KeySet(es) {
      var i :| 0 <= i < |es[1..]| && es[1..][i].dataCurta == k;
      assert es[i + 1] == es[1..][i];
    }
  }

  /** The keys of `eventos_por_data` in insertion order (lines 393-398): each
      `data_curta` the first time it occurs. */
  function DistinctKeys(es: seq<Evento>): (ks: seq<string>)
    ensures Distinct(ks)
    ensures forall k :: k in ks <==> k in KeySet(es)
  {
    if |es| == 0 then []
    else
      var prev := DistinctKeys(es[..|es| - 1]);
      var k := es[|es| - 1].dataCurta;
      KeySetSnoc(es);
      if k in prev then prev else prev + [k]
  }

  /** `eventos_por_data[k]`: the events whose key is `k`, in input order. */
  function Bucket(es: seq<Evento>, k: string): (b: seq<Evento>)
    ensures forall i :: 0 <= i < |b| ==> b[i].dataCurta == k && b[i] in es
    ensures |b| > 0 <==> k in KeySet(es)
  {
    if |es| == 0 then []
    else
      KeySetCons(es);
      (if es[0].dataCurta == k then [es[0]] else []) + Bucket(es[1..], k)
  }

  /** The date a key is sorted by (line 404): `k + "/" + str(year)` read with
      `strptime(..., '%d/%m/%Y')`. A key that reads as a date is that date's
      `DD/MM` text, in `year`. */
  function KeyDate(k: string, year: nat): (r: Result<Date>)
    ensures r.Ok? ==> ValidDate(r.value) && r.value.year == year && k == DayMonthText(r.value)
  {
    DayMonthYearSplit(k, year);
    StrptimeDayMonthYear(k + "/" + Decimal(year))
  }

  function KeyRankOf(k: string, year: nat): int {
    match KeyDate(k, year)
    case Ok(d) => DateRank(d)
    case Err(_) => 0
  }

  function KeyRank(year: nat): string -> int {
    k => KeyRankOf(k, year)
  }

  /** The message of the first key, in insertion order, that cannot be read as a
      date: `sorted` computes every key before comparing any. */
  function FirstKeyError(ks: seq<string>, year: nat): (r: Option<string>)
    ensures r.None? <==> forall i :: 0 <= i < |ks| ==> KeyDate(ks[i], year).Ok?
  {
    if |ks| == 0 then None
    else match KeyDate(ks[0], year)
      case Err(m) => Some(m)
      case Ok(_) => FirstKeyError(ks[1..], year)
  }

  /** `nome_dia_semana(k)` (lines 347-372): the Portuguese weekday of the key in
      the current year, or the empty string when the key is not a date of that
      year and `strptime` raises. */
  function NomeDiaSemana(k: string, year: nat): (r: string)
    ensures r == "" || r in WeekdayNames
    ensures r == "" <==> KeyDate(k, year).Err?
  {
    match KeyDate(k, year)
    case Ok(d) => WeekdayNames[Weekday(d)]
    case Err(_) => ""
  }

  /** The day heading of lines 423-429: `Hoje` for today's key, `Amanhã` for
      tomorrow's, and the weekday for any other, then a comma and the key. */
  function DayLabel(k: string, hoje: string, amanha: string, year: nat): (r: string)
    ensures r == "Hoje, " + k <==> k == hoje
    ensures r == "Amanhã, " + k <==> k != hoje && k == amanha
    ensures k != hoje && k != amanha ==> r == NomeDiaSemana(k, year) + ", " + k
  {
    var word := if k == hoje then "Hoje" else if k == amanha then "Amanhã" else NomeDiaSemana(k, year);
    NotWeekdays();
    LabelWords(word, k);
    word + ", " + k
  }

  lemma NotWeekdays()
    ensures "Hoje" !in WeekdayNames && "Amanhã" !in WeekdayNames
    ensures "Hoje" != "" && "Amanhã" != "" && "Hoje" != "Amanhã"
  {
  }

  /** A heading is told apart by the word before its comma. */
  lemma LabelWords(word: string, k: string)
    ensures word + ", " + k == "Hoje, " + k <==> word == "Hoje"
    ensures word + ", " + k == "Amanhã, " + k <==> word == "Amanhã"
  {
    assert word + ", " + k == word + (", " + k);
    assert "Hoje, " + k == "Hoje" + (", " + k);
    assert "Amanhã, " + k == "Amanhã" + (", " + k);
    CancelSuffix(word, "Hoje", ", " + k);
    CancelSuffix(word, "Amanhã", ", " + k);
  }

  lemma CancelSuffix(a: string, b: string, c: string)
    ensures a + c == b + c <==> a == b
  {
    if a + c == b + c {
      assert a == (a + c)[..|a|] && b == (b + c)[..|b|];
    }
  }

  /** One day group: the bucket of `k` and its label with the count appended
      (lines 411 and 432-433). */
  function GroupOf(es: seq<Evento>, k: string, hoje: string, amanha: string, year: nat): DayGroup {
    var b := Bucket(es, k);
    DayGroup(k, DayLabel(k, hoje, amanha, year) + " (" + Decimal(|b|) + ")", b)
  }

  function MakeGroups(ks: seq<string>, es: seq<Evento>, hoje: string, amanha: string, year: nat): (gs: seq<DayGroup>)
    ensures |gs| == |ks|
    ensures forall i :: 0 <= i < |ks| ==> gs[i] == GroupOf(es, ks[i], hoje, amanha, year)
  {
    if |ks| == 0 then [] else [GroupOf(es, ks[0], hoje, amanha, year)] + MakeGroups(ks[1..], es, hoje, amanha, year)
  }

  /** The events of the groups, group after group. */
  function Flatten(gs: seq<DayGroup>): seq<Evento> {
    if |gs| == 0 then [] else gs[0].eventos + Flatten(gs[1..])
  }

  /** Some event's key does not read as a date of `year`. */
  ghost predicate SomeKeyFails(es: seq<Evento>, year: nat) {
    exists i :: 0 <= i < |es| && KeyDate(es[i].dataCurta, year).Err?
  }

  /** `exibir_eventos(events_frame, eventos, eventos_count_label)` without the
      widgets; `now` stands for every `datetime.now()` it calls. */
  function ExibirEventos(es: seq<Evento>, now: DateTime): (r: Shown)
    requires ValidDateTime(now)
    ensures r.counter == CounterText(|es|)
    ensures r.listing == Ok(Placeholder) <==> |es| == 0
    ensures r.listing.Err? <==>
      |es| > 0 && (now.date == Date(MaxYear, 12, 31) || SomeKeyFails(es, now.date.year))
  {
    var counter := CounterText(|es|);
    var year := now.date.year;
    var ks := DistinctKeys(es);
    var failure := FirstKeyError(ks, year);
    FailureMeansSomeKeyFails(es, year);
    if |es| == 0 then Shown(counter, Ok(Placeholder))
    else if failure.Some? then Shown(counter, Err(failure.value))
    else if now.date == Date(MaxYear, 12, 31) then Shown(counter, Err("date value out of range"))
    else Shown(counter, Ok(Days(Agrupar(es, now))))
  }

  /** The first key that fails to parse exists exactly when some event's key fails. */
  lemma FailureMeansSomeKeyFails(es: seq<Evento>, year: nat)
    ensures FirstKeyError(DistinctKeys(es), year).Some? <==> SomeKeyFails(es, year)
  {
    var ks := DistinctKeys(es);
    if FirstKeyError(ks, year).Some? {
      var j :| 0 <= j < |ks| && KeyDate(ks[j], year).Err?;
      assert ks[j] in KeySet(es);
    } else {
      forall i | 0 <= i < |es| ensures KeyDate(es[i].dataCurta, year).Ok? {
        assert es[i].dataCurta in KeySet(es);
      }
    }
  }

  /** Lines 401-433 once every key reads as a date and tomorrow exists: the
      groups in the order of their dates, headed by `Hoje`, `Amanhã` or the
      weekday. There is one group per key, holding the events with that key. */
  function Agrupar(es: seq<Evento>, now: DateTime): (gs: seq<DayGroup>)
    requires ValidDateTime(now) && now.date != Date(MaxYear, 12, 31)
    ensures |gs| == |DistinctKeys(es)|
    ensures forall i :: 0 <= i < |gs| ==> gs[i].key in KeySet(es) && gs[i].eventos == Bucket(es, gs[i].key)
  {
    var year := now.date.year;
    var ks := DistinctKeys(es);
    var sorted := SortBy(ks, KeyRank(year));
    var hoje, amanha := DayMonthText(now.date), DayMonthText(Tomorrow(now.date).value);
    SortedKeysOccur(ks, sorted, es);
    GroupsOfKeys(sorted, es, hoje, amanha, year);
    MakeGroups(sorted, es, hoje, amanha, year)
  }

  lemma SortedKeysOccur(ks: seq<string>, sorted: seq<string>, es: seq<Evento>)
    requires ks == DistinctKeys(es) && multiset(sorted) == multiset(ks)
    ensures |sorted| == |ks|
    ensures forall i :: 0 <= i < |sorted| ==> sorted[i] in KeySet(es)
  {
    assert |sorted| == |multiset(sorted)| == |multiset(ks)| == |ks|;
    forall i | 0 <= i < |sorted| ensures sorted[i] in KeySet(es) {
      assert sorted[i] in multiset(ks);
    }
  }

  lemma GroupsOfKeys(ks: seq<string>, es: seq<Evento>, hoje: string, amanha: string, year: nat)
    requires forall i :: 0 <= i < |ks| ==> ks[i] in KeySet(es)
    ensures var gs := MakeGroups(ks, es, hoje, amanha, year);
      forall i :: 0 <= i < |gs| ==> gs[i].key in KeySet(es) && gs[i].eventos == Bucket(es, gs[i].key)
  {
    var gs := MakeGroups(ks, es, hoje, amanha, year);
    forall i | 0 <= i < |gs| ensures gs[i].key in KeySet(es) && gs[i].eventos == Bucket(es, gs[i].key) {
      assert gs[i] == GroupOf(es, ks[i], hoje, amanha, year);
    }
  }

  // ---------------------------------------------------------------------------
  // Keys and the dates they stand for

  /** Every date of a four-digit year is read back from its key. */
  lemma KeyDateOf(d: Date)
    requires ValidDate(d) && d.year >= 1000
    ensures KeyDate(DayMonthText(d), d.year) == Ok(d)
  {
    DayMonthYearRoundTrip(d);
  }

  /** The record `formatar_evento` falls back to carries today's key, so in a
      four-digit year it is listed under `Hoje`. */
  lemma FallbackUnderToday(message: string, now: DateTime, amanha: string)
    requires ValidDateTime(now) && now.date.year >= 1000
    ensures var k := Fallback(message, now).dataCurta;
      && KeyDate(k, now.date.year) == Ok(now.date)
      && DayLabel(k, DayMonthText(now.date), amanha, now.date.year) == "Hoje, " + k
  {
    KeyDateOf(now.date);
  }

  lemma DayMonthTextInjective(a: Date, b: Date)
    requires ValidDate(a) && ValidDate(b)
    ensures DayMonthText(a) == DayMonthText(b) <==> a.day == b.day && a.month == b.month
  {
    if DayMonthText(a) == DayMonthText(b) {
      assert Pad2(a.day) == DayMonthText(a)[..2] == DayMonthText(b)[..2] == Pad2(b.day);
      assert Pad2(a.month) == DayMonthText(a)[3..] == DayMonthText(b)[3..] == Pad2(b.month);
    }
  }

  lemma DateRankInjective(a: Date, b: Date)
    requires ValidDate(a) && ValidDate(b) && DateRank(a) == DateRank(b)
    ensures a == b
  {
  }

  /** `nome_dia_semana` names the true weekday of every date of a four-digit
      year, and names nothing in years below 1000, whose `%Y` text is too short
      for `strptime`. */
  lemma NomeDiaSemanaOf(d: Date)
    requires ValidDate(d)
    ensures d.year >= 1000 ==> NomeDiaSemana(DayMonthText(d), d.year) == WeekdayNames[Weekday(d)]
    ensures d.year < 1000 ==> forall k :: NomeDiaSemana(k, d.year) == ""
  {
    if d.year >= 1000 {
      KeyDateOf(d);
    } else {
      DecimalWidth(d.year);
      forall k ensures NomeDiaSemana(k, d.year) == "" {
        if KeyDate(k, d.year).Ok? {
          assert false;
        }
      }
    }
  }

  lemma FridayExample()
    ensures NomeDiaSemana(DayMonthText(Date(2024, 3, 15)), 2024) == "Sexta"
  {
    Friday15March2024();
    NomeDiaSemanaOf(Date(2024, 3, 15));
  }

  // ---------------------------------------------------------------------------
  // One event line

  /** The line shown for one event (lines 436-470): the colour of its bar, its
      title, and its hour or "Dia inteiro". */
  datatype Row = Row(bar: string, title: string, detail: string)

  const AllDayText := "Dia inteiro"

  function EventRow(t: Palette.Theme, e: Evento): (r: Row)
    requires WellFormed(e)
    ensures r.title == e.titulo
    ensures e.diaInteiro ==> r.detail == AllDayText
    ensures !e.diaInteiro ==> r.detail == e.hora.value
  {
    Row(Palette.CorEvento(t, e.cor), e.titulo, if e.diaInteiro then AllDayText else e.hora.value)
  }

  /** For a formatted event the second line tells the three kinds apart: "Dia
      inteiro" exactly for all-day events, "??:??" exactly for events whose start
      could not be read, and otherwise the hour and minute of the start. */
  lemma RowOfFormatted(t: Palette.Theme, raw: RawEvent, now: DateTime)
    requires ValidDateTime(now)
    ensures var e := FormatarEvento(raw, now);
      var r := EventRow(t, e);
      && (r.detail == AllDayText <==> e.diaInteiro)
      && (r.detail == UnknownTime <==> ParseEventStart(raw).Err?)
      && (!e.diaInteiro && ParseEventStart(raw).Ok? ==> r.detail == HourMinuteText(e.dataObj))
      && r.bar == Palette.CorEvento(t, e.cor)
  {
    var e := FormatarEvento(raw, now);
    if ParseEventStart(raw).Ok? && !e.diaInteiro {
      var h := HourMinuteText(e.dataObj);
      assert IsDigit(h[0]) by {
        assert h[0] == Pad2(e.dataObj.hour)[0];
      }
      assert h != UnknownTime;
    }
  }
}

=== FILE: month_window.dfy ===
/** The time window of the events query: the whole calendar month that contains
    today, as the two ISO instants the query is sent with. */
module MonthWindow {
  import opened Wrappers
  import opened Digits
  import opened Dates
  import opened DateText

  /** The first and the last day of the month containing `today`. The last day is
      the day before the first of the following month, which for December is
      1 January of the next year; building that date raises past year 9999. */
  function MonthBounds(today: Date): (r: Result<(Date, Date)>)
    requires ValidDate(today)
    ensures r.Ok? <==> !(today.year == MaxYear && today.month == 12)
    ensures r.Ok? ==>
      var (first, last) := r.value;
      && ValidDate(first) && ValidDate(last)
      && first == Date(today.year, today.month, 1)
      && last.year == today.year && last.month == today.month
      && last.day == DaysInMonth(today.year, today.month)
  {
    var first := Date(today.year, today.month, 1);
    if today.month == 12 then
      if today.year + 1 > MaxYear then Err("year " + Decimal(today.year + 1) + " is out of range")
      else Ok((first, PrevDay(Date(today.year + 1, 1, 1))))
    else Ok((first, PrevDay(Date(today.year, today.month + 1, 1))))
  }

  /** The window holds exactly the days of today's month, and it is as long as
      the month: 28 to 31 days, 29 for February of a leap year. */
  lemma WindowIsMonth(today: Date, d: Date)
    requires ValidDate(today) && ValidDate(d) && MonthBounds(today).Ok?
    ensures var (first, last) := MonthBounds(today).value;
      && (Ordinal(first) <= Ordinal(d) <= Ordinal(last) <==> d.year == today.year && d.month == today.month)
      && Ordinal(last) - Ordinal(first) + 1 == DaysInMonth(today.year, today.month)
      && Ordinal(first) <= Ordinal(today) <= Ordinal(last)
  {
    var (first, last) := MonthBounds(today).value;
    if d.year < today.year {
      YearsPrecede(d, first);
    } else if d.year > today.year {
      YearsPrecede(last, d);
    } else if d.month < today.month {
      MonthsPrecede(d.year, d.month, today.month);
    } else if d.month > today.month {
      MonthsPrecede(d.year, today.month, d.month);
    }
  }

  /** Every day of an earlier month of the same year has a smaller ordinal. */
  lemma {:induction false} MonthsPrecede(y: int, m1: int, m2: int)
    requires 1 <= m1 < m2 <= 12
    ensures DaysBeforeMonth(y, m1) + DaysInMonth(y, m1) <= DaysBeforeMonth(y, m2)
  {
    if m1 + 1 < m2 {
      MonthsPrecede(y, m1, m2 - 1);
    }
  }

  /** Every day of an earlier year has a smaller ordinal. */
  lemma YearsPrecede(a: Date, b: Date)
    requires ValidDate(a) && ValidDate(b) && a.year < b.year
    ensures Ordinal(a) < Ordinal(b)
  {
    if a.month < 12 {
      MonthsPrecede(a.year, a.month, 12);
    }
    MonthsFillYear(a.year);
    DaysBeforeYearStep(a.year);
    YearStartsGrow(a.year + 1, b.year);
    assert DaysBeforeMonth(a.year, 13) == DaysBeforeMonth(a.year, 12) + 31;
    assert Ordinal(a) <= DaysBeforeYear(a.year) + DaysInYear(a.year);
    if b.month > 1 {
      MonthsPrecede(b.year, 1, b.month);
    }
  }

  lemma {:induction false} YearStartsGrow(y1: int, y2: int)
    requires 1 <= y1 <= y2
    ensures DaysBeforeYear(y1) <= DaysBeforeYear(y2)
    decreases y2 - y1
  {
    if y1 < y2 {
      DaysBeforeYearStep(y1);
      YearStartsGrow(y1 + 1, y2);
    }
  }

  /** `get_inicio_fim_mes`: midnight of the first day and the last microsecond of
      the last day, each written by `isoformat` with a literal `Z` appended. */
  function GetInicioFimMes(today: Date): (r: Result<(string, string)>)
    requires ValidDate(today)
    ensures r.Ok? <==> MonthBounds(today).Ok?
  {
    match MonthBounds(today)
    case Err(e) => Err(e)
    case Ok((first, last)) =>
      Ok((IsoFormat(Midnight(first)) + "Z", IsoFormat(EndOfDay(last)) + "Z"))
  }

  /** `datetime.combine(d, datetime.max.time())` */
  function EndOfDay(d: Date): (t: DateTime)
    requires ValidDate(d)
    ensures ValidDateTime(t)
  {
    DateTime(d, 23, 59, 59, 999999, None)
  }
}

=== FILE: palette.dfy ===
/** The light and dark palettes, the global theme switch and the map from the
    calendar API's colour identifiers to display colours. */
module Palette {
  /** A palette: the eight named roles of `CORES` and `CORES_DARK`. */
  datatype Palette = Palette(
    azul: string,
    vermelho: string,
    amarelo: string,
    verde: string,
    cinzaClaro: string,
    cinzaTexto: string,
    cinzaData: string,
    branco: string)

  const Cores := Palette("#4285F4", "#EA4335", "#FBBC05", "#34A853", "#F1F3F4", "#3C4043", "#5F6368", "#FFFFFF")
  const CoresDark := Palette("#8AB4F8", "#F28B82", "#FDD663", "#81C995", "#202124", "#E8EAED", "#9AA0A6", "#2D2E30")

  /** The two module globals: `modo_dark` and `cores_atuais`. */
  datatype Theme = Theme(modoDark: bool, coresAtuais: Palette)

  /** The values the globals start with. */
  const Initial := Theme(false, Cores)

  /** The active palette is the one the flag names. */
  predicate Consistent(t: Theme) {
    t.coresAtuais == (if t.modoDark then CoresDark else Cores)
  }

  /** `alternar_modo`: flip the flag, then pick the palette from the new flag. */
  function AlternarModo(t: Theme): (r: Theme)
    ensures r.modoDark == !t.modoDark
    ensures Consistent(r)
  {
    var dark := !t.modoDark;
    Theme(dark, if dark then CoresDark else Cores)
  }

  /** Toggling twice restores the state exactly when the state was consistent,
      and the initial state is. */
  lemma ToggleTwice(t: Theme)
    ensures AlternarModo(AlternarModo(t)) == t <==> Consistent(t)
    ensures Consistent(Initial)
  {
  }

  /** `cor_evento`: ids 1, 2, 3 and 9 read the active palette, the other seven
      known ids pick a literal by the flag, anything else is the active blue. */
  function CorEvento(t: Theme, colorId: string): (r: string)
    ensures colorId !in ColorIds ==> r == t.coresAtuais.azul
  {
    var p := t.coresAtuais;
    var light := !t.modoDark;
    if colorId == "1" then p.azul
    else if colorId == "2" then p.verde
    else if colorId == "3" then p.vermelho
    else if colorId == "4" then (if light then "#9C27B0" else "#CE93D8")
    else if colorId == "5" then (if light then "#FF5722" else "#FFAB91")
    else if colorId == "6" then (if light then "#00BCD4" else "#80DEEA")
    else if colorId == "7" then (if light then "#795548" else "#BCAAA4")
    else if colorId == "8" then (if light then "#607D8B" else "#B0BEC5")
    else if colorId == "9" then p.amarelo
    else if colorId == "10" then (if light then "#8BC34A" else "#C5E1A5")
    else if colorId == "11" then (if light then "#009688" else "#80CBC4")
    else p.azul
  }

  /** The eleven colour identifiers of the calendar API, `"1"` to `"11"`. */
  const ColorIds: seq<string> := ["1", "2", "3", "4", "5", "6", "7", "8", "9", "10", "11"]

  /** The colour table as data: entry i holds the light and the dark colour of
      identifier `ColorIds[i]`. */
  const ColorTable: seq<(string, string)> := [
    (Cores.azul, CoresDark.azul),
    (Cores.verde, CoresDark.verde),
    (Cores.vermelho, CoresDark.vermelho),
    ("#9C27B0", "#CE93D8"),
    ("#FF5722", "#FFAB91"),
    ("#00BCD4", "#80DEEA"),
    ("#795548", "#BCAAA4"),
    ("#607D8B", "#B0BEC5"),
    (Cores.amarelo, CoresDark.amarelo),
    ("#8BC34A", "#C5E1A5"),
    ("#009688", "#80CBC4")
  ]

  /** In a consistent state every known identifier shows its table entry for the
      current mode, and every other identifier the current palette's blue. */
  lemma CorEventoMatchesTable(t: Theme, colorId: string)
    requires Consistent(t)
    ensures forall i :: 0 <= i < |ColorIds| && colorId == ColorIds[i] ==>
      CorEvento(t, colorId) == (if t.modoDark then ColorTable[i].1 else ColorTable[i].0)
    ensures colorId !in ColorIds ==> CorEvento(t, colorId) == (if t.modoDark then CoresDark.azul else Cores.azul)
  {
  }

  /** Identifiers 1, 2, 3 and 9 follow the active palette whatever the flag says;
      the other seven known identifiers follow the flag whatever the palette is. */
  lemma CorEventoSources(t: Theme, colorId: string)
    ensures colorId in {"1", "2", "3", "9"} ==> CorEvento(t.(modoDark := !t.modoDark), colorId) == CorEvento(t, colorId)
    ensures colorId in ColorIds && colorId !in {"1", "2", "3", "9"} ==>
      CorEvento(t.(coresAtuais := CoresDark), colorId) == CorEvento(t, colorId)
  {
  }

  /** Every identifier, known or not, changes colour when the theme is toggled. */
  lemma ModesDiffer(t: Theme, colorId: string)
    requires Consistent(t)
    ensures CorEvento(AlternarModo(t), colorId) != CorEvento(t, colorId)
  {
  }

  /** Example: id `11` is `#009688` in light mode and `#80CBC4` in dark mode. */
  lemma ElevenExample()
    ensures CorEvento(Initial, "11") == "#009688"
    ensures CorEvento(AlternarModo(Initial), "11") == "#80CBC4"
  {
  }
}

=== FILE: refresh.dfy ===
/** `atualizar_widget` (lines 477-503) without the widgets, the fetch and the
    rescheduling: format the fetched events, sort them by start, hand them to
    `exibir_eventos`, and turn any exception into an error line. */
module Refresh {
  import opened Wrappers
  import opened Dates
  import opened DateText
  import opened Events
  import opened Sorting
  import opened Grouping
  import opened DayListing

  const FailurePrefix := "Erro ao atualizar: "
  const MixedMessage := "can't compare offset-naive and offset-aware datetimes"

  /** The event area after a refresh: a listing, or the error line. */
  datatype Body = Listed(listing: Listing) | Failed(text: string)

  /** The counter label and the event area. */
  datatype Screen = Screen(counter: string, body: Body)

  /** The list comprehension of `atualizar_widget` that passes every fetched
      event through `formatar_evento`. */
  function FormatAll(raw: seq<RawEvent>, now: DateTime): (es: seq<Evento>)
    requires ValidDateTime(now)
    ensures |es| == |raw|
    ensures forall i :: 0 <= i < |raw| ==> es[i] == FormatarEvento(raw[i], now) && WellFormed(es[i])
  {
    if |raw| == 0 then [] else [FormatarEvento(raw[0], now)] + FormatAll(raw[1..], now)
  }

  predicate HasNaive(es: seq<Evento>) {
    exists i :: 0 <= i < |es| && es[i].dataObj.offset.None?
  }

  predicate HasAware(es: seq<Evento>) {
    exists i :: 0 <= i < |es| && es[i].dataObj.offset.Some?
  }

  /** The integer that `<` on two `data_obj` values amounts to when both are
      naive (the wall clock) or both aware (the instant in UTC). */
  function DataObjRank(e: Evento): int {
    if e.dataObj.offset.Some? && ValidDate(e.dataObj.date) then UtcRank(e.dataObj) else WallClockRank(e.dataObj)
  }

  /** The sort in `atualizar_widget`, as written: `eventos.sort(key=lambda e:
      e['data_obj'])`. Python refuses to order a naive datetime against an
      aware one, and a sort that finishes has compared every pair of neighbours
      of its result, one of which is then a naive/aware pair; so the sort
      raises exactly when both kinds are present. */
  function SortByStart(es: seq<Evento>): (r: Result<seq<Evento>>)
    ensures r.Err? <==> HasNaive(es) && HasAware(es)
    ensures r.Err? ==> r.message == MixedMessage
    ensures r.Ok? ==> multiset(r.value) == multiset(es) && |r.value| == |es| && SortedBy(r.value, DataObjRank)
    ensures r.Ok? ==> forall v :: WithRank(r.value, DataObjRank, v) == WithRank(es, DataObjRank, v)
  {
    if HasNaive(es) && HasAware(es) then Err(MixedMessage)
    else
      var sorted := SortBy(es, DataObjRank);
      assert |sorted| == |multiset(sorted)| == |multiset(es)| == |es|;
      assert forall v :: WithRank(sorted, DataObjRank, v) == WithRank(es, DataObjRank, v) by {
        forall v ensures WithRank(sorted, DataObjRank, v) == WithRank(es, DataObjRank, v) {
          SortByStable(es, DataObjRank, v);
        }
      }
      Ok(sorted)
  }

  /** The start as shown: the wall-clock reading of `data_obj`, whatever its offset. */
  function ShownStart(e: Evento): int {
    WallClockRank(e.dataObj)
  }

  /** The sort in `atualizar_widget` as evidently intended: order by the start as
      shown (`e['data_obj'].replace(tzinfo=None)`), which never raises. */
  function SortByStartFixed(es: seq<Evento>): (r: seq<Evento>)
    ensures multiset(r) == multiset(es) && |r| == |es|
    ensures SortedBy(r, ShownStart)
    ensures forall v :: WithRank(r, ShownStart, v) == WithRank(es, ShownStart, v)
  {
    var r := SortBy(es, ShownStart);
    assert |r| == |multiset(r)| == |multiset(es)| == |es|;
    assert forall v :: WithRank(r, ShownStart, v) == WithRank(es, ShownStart, v) by {
      forall v ensures WithRank(r, ShownStart, v) == WithRank(es, ShownStart, v) {
        SortByStable(es, ShownStart, v);
      }
    }
    r
  }

  /** The shared tail of both versions: `exibir_eventos`, with its exception
      caught after the counter was updated. */
  function Show(es: seq<Evento>, now: DateTime): (r: Screen)
    requires ValidDateTime(now)
    ensures r.counter == CounterText(|es|)
    ensures r.body.Failed? <==> ExibirEventos(es, now).listing.Err?
  {
    var shown := ExibirEventos(es, now);
    match shown.listing
    case Err(m) => Screen(shown.counter, Failed(FailurePrefix + m))
    case Ok(l) => Screen(shown.counter, Listed(l))
  }

  /** `atualizar_widget` as written; `prev` is the counter text left by the
      previous refresh and `fetched` the outcome of `buscar_eventos`. */
  function AtualizarWidget(prev: string, fetched: Result<seq<RawEvent>>, now: DateTime): (r: Screen)
    requires ValidDateTime(now)
    ensures fetched.Err? ==> r == Screen(prev, Failed(FailurePrefix + fetched.message))
    ensures fetched.Ok? ==>
      var es := FormatAll(fetched.value, now);
      && (HasNaive(es) && HasAware(es) ==> r == Screen(prev, Failed(FailurePrefix + MixedMessage)))
      && (!(HasNaive(es) && HasAware(es)) ==> r.counter == CounterText(|fetched.value|))
  {
    match fetched
    case Err(m) => Screen(prev, Failed(FailurePrefix + m))
    case Ok(raw) =>
      var es := FormatAll(raw, now);
      match SortByStart(es)
      case Err(m) => Screen(prev, Failed(FailurePrefix + m))
      case Ok(sorted) => Show(sorted, now)
  }

  /** `atualizar_widget` with the corrected sort. */
  function AtualizarWidgetFixed(prev: string, fetched: Result<seq<RawEvent>>, now: DateTime): (r: Screen)
    requires ValidDateTime(now)
    ensures fetched.Err? ==> r == Screen(prev, Failed(FailurePrefix + fetched.message))
    ensures fetched.Ok? ==> r.counter == CounterText(|fetched.value|)
  {
    match fetched
    case Err(m) => Screen(prev, Failed(FailurePrefix + m))
    case Ok(raw) => Show(SortByStartFixed(FormatAll(raw, now)), now)
  }

  // ---------------------------------------------------------------------------
  // The mixed month

  /** An all-day event and a timed event, whose `dateTime` ends in `Z` or in a UTC
      offset: the first is read as a naive midnight, the second as an aware
      instant. */
  lemma MixedKinds(d: Date, t: DateTime, now: DateTime)
    requires ValidDate(d) && ValidDateTime(t) && ValidDateTime(now)
    ensures var es := FormatAll([RawEvent(Some(Start(None, Some(IsoDateText(d)))), None, None),
                                 RawEvent(Some(Start(Some(TimedText(t)), None)), None, None)], now);
      es[0].dataObj.offset.None? && es[1].dataObj.offset.Some?
  {
    AllDayRoundTrip(d, None, None, now);
    TimedTextAware(t);
  }

  /** Any month holding both an all-day event and a timed one fails to refresh
      as written: the error line replaces the listing and the counter keeps its
      old text. */
  lemma MixedMonthFails(prev: string, d: Date, t: DateTime, now: DateTime)
    requires ValidDate(d) && ValidDateTime(t) && ValidDateTime(now)
    ensures AtualizarWidget(prev, Ok([RawEvent(Some(Start(None, Some(IsoDateText(d)))), None, None),
                                     RawEvent(Some(Start(Some(TimedText(t)), None)), None, None)]), now)
      == Screen(prev, Failed(FailurePrefix + MixedMessage))
  {
    var raw := [RawEvent(Some(Start(None, Some(IsoDateText(d)))), None, None),
                RawEvent(Some(Start(Some(TimedText(t)), None)), None, None)];
    MixedKinds(d, t, now);
    var es := FormatAll(raw, now);
    assert HasNaive(es) && HasAware(es);
  }

  /** Where no aware start is present the correction changes nothing. */
  lemma FixedAgreesWhenNaive(es: seq<Evento>)
    requires !HasAware(es)
    ensures SortByStart(es) == Ok(SortByStartFixed(es))
  {
    forall i | 0 <= i < |es| ensures DataObjRank(es[i]) == ShownStart(es[i]) {
      assert es[i].dataObj.offset.None?;
    }
    SortByCongruent(es, DataObjRank, ShownStart);
  }

  /** As written, a month whose starts are all naive or all aware refreshes as
      the corrected version does, except that each day's events are in order of
      `data_obj` itself (the instant, for aware starts): the refresh fails only
      for the reasons `exibir_eventos` has, shows the placeholder exactly for an
      empty month, and otherwise lists every formatted event once, days in
      calendar order. */
  lemma RefreshListing(prev: string, raw: seq<RawEvent>, now: DateTime)
    requires ValidDateTime(now)
    requires var es := FormatAll(raw, now); !(HasNaive(es) && HasAware(es))
    ensures var es := FormatAll(raw, now);
      var r := AtualizarWidget(prev, Ok(raw), now);
      && (r.body.Failed? <==>
            (|raw| > 0 && (now.date == Date(MaxYear, 12, 31) || SomeKeyFails(es, now.date.year))))
      && (r.body == Listed(Placeholder) <==> |raw| == 0)
      && (r.body.Listed? && r.body.listing.Days? ==>
            var gs := r.body.listing.groups;
            && multiset(Flatten(gs)) == multiset(es)
            && Chronological(gs, now.date.year)
            && (forall i :: 0 <= i < |gs| ==> SortedBy(gs[i].eventos, DataObjRank)))
  {
    var es := FormatAll(raw, now);
    var sorted := SortByStart(es).value;
    var r := AtualizarWidget(prev, Ok(raw), now);
    assert r == Show(sorted, now);
    SomeKeyFailsPermutation(es, sorted, now.date.year);
    if r.body.Listed? && r.body.listing.Days? {
      ListingMeaning(sorted, now);
      var gs := r.body.listing.groups;
      forall i | 0 <= i < |gs| ensures SortedBy(gs[i].eventos, DataObjRank) {
        BucketSorted(sorted, gs[i].key, DataObjRank);
      }
    }
  }

  /** With the corrected sort every refresh that reaches the calendar either
      lists each formatted event exactly once, under its day, days in calendar
      order, each day's events in order of their shown start, or fails only for
      the reasons `exibir_eventos` has (a key that is not a date of the current
      year, or no tomorrow after 31/12/9999). */
  lemma FixedRefreshListing(prev: string, raw: seq<RawEvent>, now: DateTime)
    requires ValidDateTime(now)
    ensures var es := FormatAll(raw, now);
      var r := AtualizarWidgetFixed(prev, Ok(raw), now);
      && (r.body.Failed? <==>
            (|raw| > 0 && (now.date == Date(MaxYear, 12, 31) || SomeKeyFails(es, now.date.year))))
      && (r.body == Listed(Placeholder) <==> |raw| == 0)
      && (r.body.Listed? && r.body.listing.Days? ==>
            var gs := r.body.listing.groups;
            && multiset(Flatten(gs)) == multiset(es)
            && Chronological(gs, now.date.year)
            && (forall i :: 0 <= i < |gs| ==> SortedBy(gs[i].eventos, ShownStart)))
  {
    var es := FormatAll(raw, now);
    var sorted := SortByStartFixed(es);
    var r := AtualizarWidgetFixed(prev, Ok(raw), now);
    assert r == Show(sorted, now);
    SomeKeyFailsPermutation(es, sorted, now.date.year);
    if r.body.Listed? && r.body.listing.Days? {
      ListingMeaning(sorted, now);
      var gs := r.body.listing.groups;
      forall i | 0 <= i < |gs| ensures SortedBy(gs[i].eventos, ShownStart) {
        BucketSorted(sorted, gs[i].key, ShownStart);
      }
    }
  }
}

=== FILE: regroup.dfy ===
/** Two consequences of the way `exibir_eventos` groups: the group sizes add up
    to the counter, and listing the events again in the order they are shown
    gives back the same screen. */
module Regroup {
  import opened Dates
  import opened DateText
  import opened Events
  import opened Sorting
  import opened Grouping
  import opened DayListing

  /** The number of events under all the groups. */
  function TotalSize(gs: seq<DayGroup>): nat {
    if |gs| == 0 then 0 else |gs[0].eventos| + TotalSize(gs[1..])
  }

  lemma {:induction false} TotalSizeIsLength(gs: seq<DayGroup>)
    ensures TotalSize(gs) == |Flatten(gs)|
  {
    if |gs| > 0 {
      TotalSizeIsLength(gs[1..]);
    }
  }

  /** The counts in the headings add up to the number in the counter. */
  lemma GroupSizesAddUp(es: seq<Evento>, now: DateTime)
    requires ValidDateTime(now)
    requires ExibirEventos(es, now).listing.Ok? && ExibirEventos(es, now).listing.value.Days?
    ensures var shown := ExibirEventos(es, now);
      shown.counter == CounterText(TotalSize(shown.listing.value.groups))
  {
    var gs := ExibirEventos(es, now).listing.value.groups;
    ListingMeaning(es, now);
    TotalSizeIsLength(gs);
    assert |Flatten(gs)| == |multiset(Flatten(gs))| == |multiset(es)| == |es|;
  }

  // ---------------------------------------------------------------------------
  // Buckets of buckets

  lemma {:induction false} BucketAppend(a: seq<Evento>, b: seq<Evento>, k: string)
    ensures Bucket(a + b, k) == Bucket(a, k) + Bucket(b, k)
  {
    if |a| == 0 {
      assert a + b == b;
    } else {
      var head := if a[0].dataCurta == k then [a[0]] else [];
      assert (a + b)[0] == a[0] && (a + b)[1..] == a[1..] + b;
      BucketAppend(a[1..], b, k);
      assert Bucket(a + b, k) == head + (Bucket(a[1..], k) + Bucket(b, k));
      assert Bucket(a, k) == head + Bucket(a[1..], k);
      Associate(head, Bucket(a[1..], k), Bucket(b, k));
    }
  }

  /** A sequence all of whose events carry `k` is its own bucket. */
  lemma {:induction false} BucketAll(s: seq<Evento>, k: string)
    requires forall i :: 0 <= i < |s| ==> s[i].dataCurta == k
    ensures Bucket(s, k) == s
  {
    if |s| > 0 {
      BucketAll(s[1..], k);
      assert Bucket(s, k) == [s[0]] + s[1..];
    }
  }

  /** A sequence none of whose events carries `k` has an empty bucket. */
  lemma BucketNone(s: seq<Evento>, k: string)
    requires forall i :: 0 <= i < |s| ==> s[i].dataCurta != k
    ensures Bucket(s, k) == []
  {
    assert k !in KeySet(s);
  }

  lemma BucketOfBucket(es: seq<Evento>, j: string, k: string)
    ensures Bucket(Bucket(es, j), k) == if j == k then Bucket(es, k) else []
  {
    if j == k {
      BucketAll(Bucket(es, j), k);
    } else {
      BucketNone(Bucket(es, j), k);
    }
  }

  /** Taking the bucket of `k` from the buckets of distinct keys, laid end to
      end, gives the bucket of `k` if it is one of them, and nothing otherwise. */
  lemma {:induction false} BucketOfBuckets(ks: seq<string>, es: seq<Evento>, k: string)
    requires Distinct(ks)
    ensures Bucket(Buckets(ks, es), k) == if k in ks then Bucket(es, k) else []
  {
    if |ks| > 0 {
      var rest := Buckets(ks[1..], es);
      assert Distinct(ks[1..]);
      BucketOfBuckets(ks[1..], es, k);
      BucketAppend(Bucket(es, ks[0]), rest, k);
      BucketOfBucket(es, ks[0], k);
      assert ks == [ks[0]] + ks[1..];
      if k == ks[0] {
        assert k !in ks[1..];
        assert Bucket(es, k) + [] == Bucket(es, k);
      } else {
        assert [] + Bucket(rest, k) == Bucket(rest, k);
      }
    }
  }

  // ---------------------------------------------------------------------------
  // The same days, in the same order

  /** Rearranging the events does not change which keys occur. */
  lemma KeySetPermutation(a: seq<Evento>, b: seq<Evento>)
    requires multiset(a) == multiset(b)
    ensures KeySet(a) == KeySet(b)
  {
    forall k | k in KeySet(a) ensures k in KeySet(b) {
      var i :| 0 <= i < |a| && a[i].dataCurta == k;
      assert a[i] in multiset(b);
      var j :| 0 <= j < |b| && b[j] == a[i];
    }
    forall k | k in KeySet(b) ensures k in KeySet(a) {
      var j :| 0 <= j < |b| && b[j].dataCurta == k;
      assert b[j] in multiset(a);
      var i :| 0 <= i < |a| && a[i] == b[j];
    }
  }

  /** Groups built from the same keys agree where the buckets of those keys agree. */
  lemma MakeGroupsAgree(ks: seq<string>, a: seq<Evento>, b: seq<Evento>, hoje: string, amanha: string, year: nat)
    requires forall i :: 0 <= i < |ks| ==> Bucket(a, ks[i]) == Bucket(b, ks[i])
    ensures MakeGroups(ks, a, hoje, amanha, year) == MakeGroups(ks, b, hoje, amanha, year)
  {
    var ga, gb := MakeGroups(ks, a, hoje, amanha, year), MakeGroups(ks, b, hoje, amanha, year);
    forall i | 0 <= i < |ks| ensures ga[i] == gb[i] {
      assert ga[i] == GroupOf(a, ks[i], hoje, amanha, year);
      assert gb[i] == GroupOf(b, ks[i], hoje, amanha, year);
    }
  }

  /** Listing the shown events again, in the order they are shown, reproduces
      the same counter and the same groups. */
  lemma RegroupIdempotent(es: seq<Evento>, now: DateTime)
    requires ValidDateTime(now)
    requires ExibirEventos(es, now).listing.Ok? && ExibirEventos(es, now).listing.value.Days?
    ensures ExibirEventos(Flatten(ExibirEventos(es, now).listing.value.groups), now) == ExibirEventos(es, now)
  {
    var year := now.date.year;
    var gs := ExibirEventos(es, now).listing.value.groups;
    var flat := Flatten(gs);
    ListingUnfold(es, now);
    ListingKeysParse(es, now);
    FailureMeansSomeKeyFails(es, year);
    GroupsKeepEvents(es, now);
    assert |flat| == |multiset(flat)| == |multiset(es)| == |es|;
    SomeKeyFailsPermutation(flat, es, year);
    KeySetPermutation(flat, es);
    FailureMeansSomeKeyFails(flat, year);
    var sorted := SortBy(DistinctKeys(es), KeyRank(year));
    SortedKeysAgree(flat, es, year);
    SortedKeys(es, year);
    var hoje, amanha := DayMonthText(now.date), DayMonthText(Tomorrow(now.date).value);
    assert gs == MakeGroups(sorted, es, hoje, amanha, year);
    FlattenGroups(sorted, es, hoje, amanha, year);
    forall i | 0 <= i < |sorted| ensures Bucket(flat, sorted[i]) == Bucket(es, sorted[i]) {
      BucketOfBuckets(sorted, es, sorted[i]);
    }
    MakeGroupsAgree(sorted, flat, es, hoje, amanha, year);
    assert Agrupar(flat, now) == MakeGroups(sorted, flat, hoje, amanha, year);
    ListingOf(flat, now);
  }
}

=== FILE: sorting.dfy ===
/** Stable sorting by an integer rank: the behaviour of Python's `sorted` and
    `list.sort` with a `key=` function whose values compare as integers. */
module Sorting {

  /** The elements appear in non-decreasing order of rank. */
  ghost predicate SortedBy<T>(s: seq<T>, rank: T -> int) {
    forall i, j :: 0 <= i < j < |s| ==> rank(s[i]) <= rank(s[j])
  }

  /** The elements of `s` whose rank is `v`, in their order in `s`. */
  function WithRank<T>(s: seq<T>, rank: T -> int, v: int): (r: seq<T>)
    ensures |r| <= |s|
  {
    if |s| == 0 then []
    else (if rank(s[0]) == v then [s[0]] else []) + WithRank(s[1..], rank, v)
  }

  /** Places `x` in front of the first element ranked at least as high, so that
      it stays ahead of the equally ranked elements that followed it. */
  function InsertBy<T>(x: T, s: seq<T>, rank: T -> int): (r: seq<T>)
    ensures multiset(r) == multiset(s) + multiset{x}
    ensures SortedBy(s, rank) ==> SortedBy(r, rank)
    ensures |r| == |s| + 1
    ensures forall i :: 0 <= i < |r| ==> r[i] == x || r[i] in s
  {
    if |s| == 0 || rank(x) <= rank(s[0]) then [x] + s
    else
      var t := InsertBy(x, s[1..], rank);
      var r := [s[0]] + t;
      assert s == [s[0]] + s[1..];
      ConsSorted(s, x, t, rank);
      r
  }

  /** The head of a sorted sequence, put in front of a sorted rearrangement of
      its tail and a higher ranked `x`, keeps the whole sorted. */
  lemma ConsSorted<T>(s: seq<T>, x: T, t: seq<T>, rank: T -> int)
    requires |s| > 0 && rank(s[0]) < rank(x)
    requires forall i :: 0 <= i < |t| ==> t[i] == x || t[i] in s[1..]
    requires SortedBy(s[1..], rank) ==> SortedBy(t, rank)
    ensures SortedBy(s, rank) ==> SortedBy([s[0]] + t, rank)
  {
    if SortedBy(s, rank) {
      assert SortedBy(s[1..], rank);
      var r := [s[0]] + t;
      forall i, j | 0 <= i < j < |r| ensures rank(r[i]) <= rank(r[j]) {
        if i == 0 && r[j] != x {
          assert r[j] == t[j - 1];
          var k :| 0 <= k < |s[1..]| && s[1..][k] == r[j];
          assert s[k + 1] == r[j];
        }
      }
    }
  }

  /** An element ranked no higher than anything in a sorted sequence can lead it. */
  lemma SortedCons<T>(x: T, t: seq<T>, rank: T -> int)
    requires SortedBy(t, rank)
    requires forall i :: 0 <= i < |t| ==> rank(x) <= rank(t[i])
    ensures SortedBy([x] + t, rank)
  {
    var r := [x] + t;
    forall i, j | 0 <= i < j < |r| ensures rank(r[i]) <= rank(r[j]) {
      assert r[j] == t[j - 1];
      if i > 0 {
        assert r[i] == t[i - 1];
      }
    }
  }

  /** Insertion sort: a permutation of the input, ordered by rank. */
  function SortBy<T>(s: seq<T>, rank: T -> int): (r: seq<T>)
    ensures multiset(r) == multiset(s)
    ensures SortedBy(r, rank)
  {
    if |s| == 0 then []
    else
      assert s == [s[0]] + s[1..];
      InsertBy(s[0], SortBy(s[1..], rank), rank)
  }

  /** Inserting `x` puts it in front of its equally ranked elements and leaves
      the other rank classes as they were. */
  lemma {:induction false} InsertByStable<T>(x: T, s: seq<T>, rank: T -> int, v: int)
    ensures WithRank(InsertBy(x, s, rank), rank, v)
      == (if rank(x) == v then [x] else []) + WithRank(s, rank, v)
  {
    if |s| == 0 || rank(x) <= rank(s[0]) {
      assert InsertBy(x, s, rank) == [x] + s;
      WithRankCons(x, s, rank, v);
    } else {
      var t := InsertBy(x, s[1..], rank);
      assert InsertBy(x, s, rank) == [s[0]] + t;
      InsertByStable(x, s[1..], rank, v);
      WithRankCons(s[0], t, rank, v);
      assert s == [s[0]] + s[1..];
      WithRankCons(s[0], s[1..], rank, v);
      var hx := if rank(x) == v then [x] else [];
      var h0 := if rank(s[0]) == v then [s[0]] else [];
      SwapHeads(hx, h0, WithRank(s[1..], rank, v));
    }
  }

  /** Two prefixes of which at least one is empty can be taken in either order. */
  lemma SwapHeads<T>(a: seq<T>, b: seq<T>, w: seq<T>)
    requires a == [] || b == []
    ensures b + (a + w) == a + (b + w)
  {
    if a == [] {
      assert a + w == w && b + w == a + (b + w);
    } else {
      assert b + w == w && b + (a + w) == a + w;
    }
  }

  lemma WithRankCons<T>(x: T, t: seq<T>, rank: T -> int, v: int)
    ensures WithRank([x] + t, rank, v) == (if rank(x) == v then [x] else []) + WithRank(t, rank, v)
  {
    assert ([x] + t)[0] == x && ([x] + t)[1..] == t;
  }

  /** The sort is stable: each rank class keeps its order from the input. */
  lemma {:induction false} SortByStable<T>(s: seq<T>, rank: T -> int, v: int)
    ensures WithRank(SortBy(s, rank), rank, v) == WithRank(s, rank, v)
  {
    if |s| > 0 {
      SortByStable(s[1..], rank, v);
      InsertByStable(s[0], SortBy(s[1..], rank), rank, v);
    }
  }

  /** No element occurs twice. */
  predicate Distinct<T(==)>(s: seq<T>) {
    forall i, j :: 0 <= i < j < |s| ==> s[i] != s[j]
  }

  lemma {:induction false} DistinctCounts<T>(s: seq<T>, x: T)
    requires Distinct(s)
    ensures multiset(s)[x] <= 1
  {
    if |s| > 0 {
      assert s == [s[0]] + s[1..];
      DistinctCounts(s[1..], x);
      assert s[0] !in s[1..];
    }
  }

  lemma RepeatCounts<T>(s: seq<T>, i: int, j: int)
    requires 0 <= i < j < |s| && s[i] == s[j]
    ensures multiset(s)[s[i]] >= 2
  {
    assert s == s[..i] + [s[i]] + s[i + 1..j] + [s[j]] + s[j + 1..];
  }

  /** A rearrangement of a sequence without repeats has no repeats. */
  lemma DistinctPermutation<T>(a: seq<T>, b: seq<T>)
    requires multiset(a) == multiset(b) && Distinct(b)
    ensures Distinct(a)
  {
    forall i, j | 0 <= i < j < |a| ensures a[i] != a[j] {
      if a[i] == a[j] {
        RepeatCounts(a, i, j);
        DistinctCounts(b, a[i]);
      }
    }
  }

  /** Two sequences without repeats that hold the same elements are
      rearrangements of each other. */
  lemma DistinctSameElements<T>(a: seq<T>, b: seq<T>)
    requires Distinct(a) && Distinct(b)
    requires forall x :: x in a <==> x in b
    ensures multiset(a) == multiset(b)
  {
    forall x ensures multiset(a)[x] == multiset(b)[x] {
      DistinctCounts(a, x);
      DistinctCounts(b, x);
      assert x in a <==> x in multiset(a);
      assert x in b <==> x in multiset(b);
    }
  }

  /** Two sorted rearrangements of the same elements agree, when no two distinct
      elements share a rank. */
  lemma {:induction false} SortedUnique<T>(a: seq<T>, b: seq<T>, rank: T -> int)
    requires SortedBy(a, rank) && SortedBy(b, rank) && multiset(a) == multiset(b)
    requires RankInjective(a, rank)
    ensures a == b
  {
    assert |a| == |multiset(a)| == |multiset(b)| == |b|;
    if |a| > 0 {
      SameHead(a, b, rank);
      SameTail(a, b);
      assert SortedBy(a[1..], rank) && SortedBy(b[1..], rank);
      assert RankInjective(a[1..], rank);
      SortedUnique(a[1..], b[1..], rank);
      assert a == [a[0]] + a[1..] && b == [b[0]] + b[1..];
    }
  }

  /** No two different elements share a rank. */
  ghost predicate RankInjective<T>(s: seq<T>, rank: T -> int) {
    forall i, j :: 0 <= i < |s| && 0 <= j < |s| && rank(s[i]) == rank(s[j]) ==> s[i] == s[j]
  }

  /** Two sorted arrangements of the same elements, no two of which share a
      rank, start with the same element. */
  lemma SameHead<T>(a: seq<T>, b: seq<T>, rank: T -> int)
    requires SortedBy(a, rank) && SortedBy(b, rank) && multiset(a) == multiset(b)
    requires RankInjective(a, rank) && |a| > 0 && |b| > 0
    ensures a[0] == b[0]
  {
    assert b[0] in multiset(a);
    var k :| 0 <= k < |a| && a[k] == b[0];
    assert a[0] in multiset(b);
    var m :| 0 <= m < |b| && b[m] == a[0];
    assert rank(a[0]) <= rank(a[k]) && rank(b[0]) <= rank(b[m]);
  }

  /** Removing the same first element from two arrangements of the same
      elements leaves arrangements of the same elements. */
  lemma SameTail<T>(a: seq<T>, b: seq<T>)
    requires |a| > 0 && |b| > 0 && a[0] == b[0] && multiset(a) == multiset(b)
    ensures multiset(a[1..]) == multiset(b[1..])
  {
    assert a == [a[0]] + a[1..] && b == [b[0]] + b[1..];
    assert multiset(a) == multiset{a[0]} + multiset(a[1..]);
    assert multiset(b) == multiset{a[0]} + multiset(b[1..]);
    forall x ensures multiset(a[1..])[x] == multiset(b[1..])[x] {
      assert multiset(a)[x] == multiset{a[0]}[x] + multiset(a[1..])[x];
      assert multiset(b)[x] == multiset{a[0]}[x] + multiset(b[1..])[x];
    }
  }

  /** Two ranks that agree on the elements insert them at the same place. */
  lemma {:induction false} InsertByCongruent<T>(x: T, s: seq<T>, f: T -> int, g: T -> int)
    requires f(x) == g(x) && forall i :: 0 <= i < |s| ==> f(s[i]) == g(s[i])
    ensures InsertBy(x, s, f) == InsertBy(x, s, g)
  {
    if |s| > 0 && f(x) > f(s[0]) {
      InsertByCongruent(x, s[1..], f, g);
    }
  }

  /** Sorting depends only on the ranks of the elements being sorted. */
  lemma {:induction false} SortByCongruent<T>(s: seq<T>, f: T -> int, g: T -> int)
    requires forall i :: 0 <= i < |s| ==> f(s[i]) == g(s[i])
    ensures SortBy(s, f) == SortBy(s, g)
  {
    if |s| > 0 {
      SortByCongruent(s[1..], f, g);
      var t := SortBy(s[1..], f);
      forall i | 0 <= i < |t| ensures f(t[i]) == g(t[i]) {
        assert t[i] in multiset(s[1..]);
      }
      InsertByCongruent(s[0], t, f, g);
    }
  }
}

=== FILE: wrappers.dfy ===
/** Small failure-carrying datatypes shared by the whole model. */
module Wrappers {

  /** An optional value: a dictionary key that may be absent. */
  datatype Option<+T> = None | Some(value: T)

  /** The outcome of a step that may raise: the value, or the text of the exception. */
  datatype Result<+T> = Ok(value: T) | Err(message: string)
}
